=== FILE: README.md ===
# AI/ML competency glossary and technology radar: a verified model

The application shows a glossary of AI/ML competency terms in two views.
The glossary view is a card grid with category chips. The radar view is a
"technology radar" chart. Its four quadrants are categories (Governance,
Platforms, Techniques, Tools) and its four rings are maturity levels
(Adopt, Trial, Assess, Experimental). A list grouped by quadrant sits below
the chart. The data is a bundled array of terms, optionally replaced by rows
of a published spreadsheet.

This project models the logic behind those views as pure Dafny functions
and proves what the code promises:

- **Radar placement** (`TechnicalRadar`). It covers:
  - the id hash used as a stable seed, with JavaScript's 32-bit `<<` and the unwrapped `-` and `+`;
  - grouping of terms by `category-maturity`;
  - the rows-by-columns grid inside each polar segment;
  - the clamped angular and radial jitter;
  - the zoom window (`getViewBox`) and the blip activity test.

  Positions stay in polar form: an angle in degrees and a radius in chart units.
- **Briefing parser** (`TechnicalData`). This is `parseTechnicalData`, which splits a term's `details` at `###` headings and fills the definition, application and risks sections. It also covers the definition fallback both views use.
  - The glossary view and the radar view each hold a character-for-character identical copy of the parser (`components/GlossaryView.tsx:25-39` and `components/RadarView.tsx:17-31`). It is modelled once.
- **Glossary chips** (`GlossaryView`): "All" followed by the distinct categories in default `sort` order, which compares UTF-16 code units.
- **Radar view** (`RadarView`): the quadrant buttons and radar clicks, and the per-quadrant list sections (filter, sort by name, count, dimming).
- **Application shell** (`App`): the sheet-configured test, the loader's choice of dataset, the defaulting of spreadsheet rows into terms, and the theme toggle.

Supporting modules:

- `JsStrings` gives JavaScript's `trim`, `split`/`join` on one character, `includes`, `startsWith`, `toLowerCase` as far as it matters here, UTF-16 code units and code-unit order.
- `JsNumbers` gives ToInt32, `<<`, `>>`, truncating `%`, `Math.abs`, `Math.ceil` and the clamp.
- `Seqs` gives filter, stable sort by a key, and first-occurrence de-duplication.
- `Terms` holds the `CompetencyTerm` record.

Category and maturity are plain strings. Spreadsheet rows can carry any value, and a term whose category is not a quadrant, or whose maturity is not a ring, is simply not drawn.

The category union in `types.ts:2` ('Strategy', 'Data', 'Design', 'Delivery') disagrees with the names the components and the data actually use. The model follows the code, which means the four quadrant names of `components/TechnicalRadar.tsx:13`.

## Model

| member | source | states |
|---|---|---|
| TechnicalRadar.StableSeed | components/TechnicalRadar.tsx:17-23 | The seed of the empty id is 0; the seed is a non-negative integer, a function of the id alone |
| TechnicalRadar.HashIsPolyHashModulo32Bits | components/TechnicalRadar.tsx:17-23 | Although the loop keeps the hash unwrapped, it agrees modulo 2^32 with the polynomial hash with multiplier 31 over the id's UTF-16 code units |
| TechnicalRadar.StepIsPolyStepModulo32Bits | components/TechnicalRadar.tsx:20 | One step `charCode + ((hash << 5) - hash)` with a 32-bit `<<` is congruent modulo 2^32 to `31 * hash + charCode` |
| TechnicalRadar.HashBound | components/TechnicalRadar.tsx:17-23 | Each step moves the hash by less than 2^31 + 2^16, so for ids of up to 2^21 code units the hash stays below 2^53 and the double computation is exact |
| TechnicalRadar.SeedsOfShortIds | components/TechnicalRadar.tsx:17-23 | Worked values: the seed of "a" is 97 and of "ab" is 3105 |
| TechnicalRadar.JitterAngle | components/TechnicalRadar.tsx:77 | The angular jitter lies in [-0.125, 0.1225] |
| TechnicalRadar.JitterRadial | components/TechnicalRadar.tsx:82 | The radial jitter lies in [-0.125, 0.1225] whenever the seed modulo 2^32 is below 2^31; otherwise `>>` reads the seed as a negative 32-bit number and the jitter can reach -0.3725 |
| TechnicalRadar.RowCount | components/TechnicalRadar.tsx:64-67 | One row up to 3 items, two up to 7, three up to 12, four beyond, so always 1 to 4 rows |
| TechnicalRadar.GridFits | components/TechnicalRadar.tsx:64-69 | With `cols = ceil(n / rows)` the grid has a cell for every item and one column fewer would not suffice |
| TechnicalRadar.GridCell | components/TechnicalRadar.tsx:73-74 | The column of an item is below the column count |
| TechnicalRadar.GridCellsDistinct | components/TechnicalRadar.tsx:64-74 | Every item index below n gets a row below the row count and a column below the column count, and distinct items get distinct cells |
| TechnicalRadar.GridNormsInsideUnit | components/TechnicalRadar.tsx:75-83 | Before jitter, the staggered angular fraction and the radial fraction of every cell lie strictly between 0 and 1 |
| TechnicalRadar.AngleDeg | components/TechnicalRadar.tsx:56-79 | Whatever the grid fraction and the jitter, the clamp to [0.05, 0.95] keeps the angle between 3.1 degrees inside the 62-degree range and 3.1 degrees short of its end, so strictly inside the sector less 14 degrees on each side, and strictly inside its 90-degree sector |
| TechnicalRadar.RingBandsOrdered | components/TechnicalRadar.tsx:60-61 | Each ring's band is non-empty, lies outside the previous ring's circle and inside its own, and ends before the next ring's band starts |
| TechnicalRadar.RingBandsDisjoint | components/TechnicalRadar.tsx:60-62 | No radius lies in the bands of two different rings |
| TechnicalRadar.Radius | components/TechnicalRadar.tsx:82-84 | Whatever the grid fraction and the jitter, the clamped radius lies in the ring's band |
| TechnicalRadar.PlaceItem | components/TechnicalRadar.tsx:71-89 | A placed item keeps the term unchanged and lies in its quadrant's sector and its ring's band |
| TechnicalRadar.PlaceGroup | components/TechnicalRadar.tsx:71-90 | A group yields one blip per item, in item order, each in the segment's sector and band |
| TechnicalRadar.GroupKeyInjective | components/TechnicalRadar.tsx:35 | For hyphen-free quadrant and ring names, a term carries the key of (q, r) exactly when its category is q and its maturity r |
| TechnicalRadar.Groups | components/TechnicalRadar.tsx:33-38 | Every group holds only terms carrying that group's key |
| TechnicalRadar.GroupsAreFilters | components/TechnicalRadar.tsx:33-38 | Each group is exactly the input filtered by its key, in input order |
| TechnicalRadar.QuadrantIndex | components/TechnicalRadar.tsx:43 | The index of a quadrant name is the unique position holding it |
| TechnicalRadar.RingIndex | components/TechnicalRadar.tsx:51 | The index of a ring name is the unique position holding it |
| TechnicalRadar.SegmentOf | components/TechnicalRadar.tsx:42-54 | A term gets a segment below 16 exactly when its category is a quadrant and its maturity a ring |
| TechnicalRadar.SegmentBlips | components/TechnicalRadar.tsx:51-90 | Every blip of a segment is well placed and belongs to that segment |
| TechnicalRadar.KeyMatchesSegment | components/TechnicalRadar.tsx:35-53 | The key a term is grouped under is the key the layout looks up for segment s exactly when the term is drawn in segment s |
| TechnicalRadar.SegmentTerms | components/TechnicalRadar.tsx:51-54 | The terms a segment draws are exactly the input terms of that segment, in input order |
| TechnicalRadar.LayoutFrom | components/TechnicalRadar.tsx:42-92 | The blips from a segment on are all well placed and come in quadrant-then-ring order |
| TechnicalRadar.LayoutFromTerms | components/TechnicalRadar.tsx:42-94 | The terms laid out from segment s on are, as a multiset, the input terms of segments s and later |
| TechnicalRadar.Points | components/TechnicalRadar.tsx:32-95 | Every blip of the chart is well placed, and blips come in quadrant order, then ring order |
| TechnicalRadar.PointsKeepInputOrder | components/TechnicalRadar.tsx:33-95 | Within each segment the chart draws exactly that segment's input terms, in input order |
| TechnicalRadar.PointsPlaceEachTermOnce | components/TechnicalRadar.tsx:32-95 | A drawable term appears among the blips exactly as often as in the input, with its fields unchanged; any other term does not appear |
| TechnicalRadar.GetViewBox | components/TechnicalRadar.tsx:137-147 | No selection or an unknown name gives the full 600 by 600 view; a quadrant gives a square of side center + 5 whose origin is -5 or center - 5 on each axis by the quadrant's half-planes |
| TechnicalRadar.ZoomCoversQuadrant | components/TechnicalRadar.tsx:137-147 | The zoom window of a quadrant covers the whole quarter of the canvas holding its sector, with a 5-unit margin |
| TechnicalRadar.ActiveBlipsInSelectedSector | components/TechnicalRadar.tsx:276 | With a quadrant selected, a well-placed blip (every blip of the chart is one) is active exactly when it is of that quadrant, and an active blip lies in that quadrant's sector |
| JsStrings.SplitOn | components/GlossaryView.tsx:30-31 | A split always yields at least one line, so the `lines.length < 1` guard never fires; no piece holds the separator |
| JsStrings.JoinSplit | components/GlossaryView.tsx:30-33 | Joining the lines of a split with the same separator gives back the text |
| JsStrings.Trim | components/GlossaryView.tsx:30-33 | `trim` removes whitespace runs at both ends: the result is an infix with only whitespace around it and none at its ends |
| JsStrings.CodeUnitsInjective | components/GlossaryView.tsx:21 | Different strings have different UTF-16 code-unit sequences, so code-unit order is antisymmetric on strings, which with the totality of lexicographic order makes it a total order |
| TechnicalData.SplitSections | components/GlossaryView.tsx:28 | The split on `###` followed by whitespace yields at least one piece and no piece holds a marker |
| TechnicalData.SplitJoinSections | components/GlossaryView.tsx:28 | Pieces that hold no marker, and after the first do not start with whitespace, are returned unchanged by splitting their join with "### " |
| TechnicalData.EntryOfHeadedPiece | components/GlossaryView.tsx:30-33 | A piece made of a heading line with visible text, a newline and any rest reads as the heading trimmed and lower-cased, with the rest trimmed as body, whatever whitespace or blank lines surround either |
| TechnicalData.EntryOfHeadingLine | components/GlossaryView.tsx:30-33 | A one-line piece reads as the line trimmed and lower-cased, with an empty body |
| TechnicalData.HeadedEntry | components/GlossaryView.tsx:30-33 | A piece written as heading line, trimmed body and trailing whitespace reads back as the lower-cased heading and exactly that body |
| TechnicalData.ParseTechnicalData | components/GlossaryView.tsx:25-39 | An absent or empty text gives three empty sections |
| TechnicalData.LastNamingEntryWins | components/GlossaryView.tsx:29-37 | A section holds the body of the last piece whose title names it |
| TechnicalData.UnnamedSectionStaysEmpty | components/GlossaryView.tsx:27-37 | A section no title names stays empty |
| TechnicalData.KeywordsDistinct | components/GlossaryView.tsx:34-36 | Each keyword occurs in itself and in no other keyword, so a heading fills only its own section |
| TechnicalData.ParseBriefing | components/GlossaryView.tsx:25-39 | Round trip: the layout "### Definition\nA\n\n### Application\nB\n\n### Risks\nC" with trimmed, `###`-free A, B and C parses back to (A, B, C) |
| TechnicalData.ShownDefinitionOfBriefing | components/RadarView.tsx:128-129 | A term in the briefing layout shows its own definition, or its description when that section is empty; a term without details shows its description |
| GlossaryView.Categories | components/GlossaryView.tsx:20-23 | The chips are "All" followed by exactly the categories that occur, each once, in code-unit order |
| GlossaryView.CategoriesDependOnlyOnCategorySet | components/GlossaryView.tsx:20-23 | Term lists with the same set of categories give the same chips, whatever their order or repetition |
| GlossaryView.SortedDistinctUnique | components/GlossaryView.tsx:21 | Two duplicate-free code-unit-sorted lists of the same strings are equal |
| RadarView.ButtonClick | components/RadarView.tsx:61 | Clicking the selected quadrant's button clears the selection; clicking any other selects that quadrant |
| RadarView.ButtonClickTwice | components/RadarView.tsx:61 | Two clicks on the same button restore the selection exactly when nothing or that quadrant was selected |
| RadarView.ClicksAgree | components/RadarView.tsx:61-74 | Button and radar clicks agree except on the already selected quadrant, which the button clears and the radar keeps |
| RadarView.RadarClickZooms | components/RadarView.tsx:73-76 | A radar click on a quadrant zooms the chart to a window of side center + 5 |
| RadarView.DimmedIffBlipsInactive | components/RadarView.tsx:90 | A list section is dimmed exactly when the chart hides the blips of the same quadrant |
| RadarView.QuadrantSection | components/RadarView.tsx:86-87 | A quadrant gets a section exactly when some term has that category |
| RadarView.QuadrantSectionFaithful | components/RadarView.tsx:86-98 | A section lists a permutation of its quadrant's terms sorted by name, shows their number, and is dimmed exactly when another quadrant is selected |
| RadarView.SectionsFor | components/RadarView.tsx:85-122 | The sections follow the quadrant order, skip exactly the empty quadrants, and each is its quadrant's section |
| RadarView.ListSections | components/RadarView.tsx:85-87 | The list's sections are the populated quadrants in button order |
| RadarView.ListSectionsFaithful | components/RadarView.tsx:85-98 | Every section of the list is faithful to its quadrant |
| RadarView.SectionItemsAreQuadrantTerms | components/RadarView.tsx:86-98 | A term occurs in a section as often as in the input when it is of that quadrant, and not at all otherwise |
| RadarView.ListQuadrantsArePlotted | components/RadarView.tsx:15 | The list and the chart use the same four quadrants |
| RadarView.PlottedTermsAreListed | components/RadarView.tsx:85-98 | Every term the chart draws appears in the section of its quadrant |
| App.ShippedSheetIsConfigured | App.tsx:8-31 | The shipped sheet address counts as configured |
| App.RowToTerm | App.tsx:46-55 | A mapped row always has a name, category, impact and maturity, and has details and key technology |
| App.RowDefaults | App.tsx:47-54 | Filled-in cells are copied unchanged; a missing or empty cell takes "Unnamed Concept", "Techniques", "Medium", "Assess", or the empty string |
| App.RowRoundTrip | App.tsx:46-55 | A fully filled-in term written to a row reads back unchanged |
| App.Load | App.tsx:29-62 | An unconfigured sheet or an unreachable one gives the bundled dataset, parsed rows give exactly the row-by-row mapped terms in row order, and only a parser error gives an error |
| App.DefaultedRowIsOnRadar | App.tsx:49-52 | A row with no category and no maturity is drawn in the Techniques quadrant, Assess ring |
| App.ToggleTheme | App.tsx:27 | The toggle always yields light or dark, never the current theme, and light exactly from dark |
| App.ToggleTwice | App.tsx:27 | Toggling twice gives back the theme exactly when it was light or dark |
| App.ThemeSurvivesReload | App.tsx:13-25 | The effect stores each theme the toggle sets and the initial state reads it back, so a toggled theme survives a reload; any non-empty stored value is taken as is |

## Left out

- The conversion of (angle, radius) to x/y with `Math.cos` and `Math.sin` (components/TechnicalRadar.tsx:86-87) is floating-point trigonometry. The model stops at the polar position.
- Reals are exact in the model. The layout in JavaScript uses doubles, so constants such as 0.44 * 290 may differ from their exact values in the last bits. The ring-band margins (at least 30 units) are far larger than that error.
- JSX rendering, hover state, tooltips, colour and class lookups, and modals are not modelled.
- The application and risks fallback sentences (components/GlossaryView.tsx:191,197 and components/RadarView.tsx:172,176) are fixed display text and are not modelled. The definition fallback is modelled.
- `fetch`, the `response.ok` test and `Papa.parse` are not modelled. Their outcome is a parameter of `App.Load`: unreachable (a thrown error, which the catch turns into the bundled dataset), parsed rows, or a parser error.
- `localStorage`, the DOM class effects and the server-side `typeof window` branch are not modelled. `App.InitialTheme` takes the stored value as a parameter.
- `Math.random().toString(36)` for rows without an id becomes the `freshId` parameter.
- components/TechnicalAssistant.tsx (a network chat widget), components/ProcessView.tsx (presentation only), data.ts and detailed-knowledge.ts (static content) are not part of this model.
- TechnicalRadar.HashBound: the hash is an unbounded integer. The bound lemma shows it is exact as a double only for ids of up to 2^21 code units; longer ids are not modelled against double rounding.
- JsStrings.ToLower maps only ASCII A-Z and KELVIN SIGN (which lowers to 'k'). Among the other characters only U+0130 lowers to an ASCII letter, 'i', and it is always followed by U+0307, so it can never complete an ASCII keyword. Other characters are kept as they are, so titles are compared correctly for `includes` of the three keywords but are not the full Unicode lower case.
- RadarView.QuadrantSectionFaithful: `localeCompare` is stated through a collation key (`collate`) compared lexicographically. The model proves the items are a permutation of the quadrant's terms in key order, but does not state the order among names with equal keys. Array.prototype.sort is stable and so is the model's insertion sort, but the model does not prove stability.

=== FILE: app.dfy ===
/**
  The application shell: the choice between the bundled dataset and the
  published spreadsheet, the defaulting of each spreadsheet row into a
  term, and the light/dark theme toggle. Fetching the sheet, CSV parsing
  and browser storage are not modelled; their outcomes come in as
  parameters.
*/
module App {
  import opened JsStrings
  import opened Terms
  import TechnicalRadar

  /** The published sheet the application is configured with. */
  const SheetUrl: string :=
    "https://docs.google.com/spreadsheets/d/e/"
    + "2PACX-1vQycD-CBf7SjPxqWhKVLkatw_DLur70i1yIbV4RYcUM228KDqpbH6cfojvqNAn67YgczLN5TXS2tPhU"
    + "/pub?gid=1349546253&single=true&output=csv"

  /** The placeholder prefix of an unconfigured sheet address. */
  const Placeholder: string := "PASTE_"

  /** `GOOGLE_SHEET_CSV_URL && !GOOGLE_SHEET_CSV_URL.startsWith('PASTE_')`. */
  predicate IsSheetConfigured(url: string)
  {
    url != "" && !StartsWith(url, Placeholder)
  }

  /** The shipped address counts as configured, so the sheet is fetched. */
  lemma ShippedSheetIsConfigured()
    ensures IsSheetConfigured(SheetUrl)
  {
    assert Placeholder[0] == 'P';
    assert SheetUrl[0] == 'h';
    assert SheetUrl[..|Placeholder|][0] == SheetUrl[0];
  }

  /** A spreadsheet row after CSV parsing: every column may be missing. */
  datatype Row = Row(
    id: Option<string>,
    name: Option<string>,
    category: Option<string>,
    description: Option<string>,
    impact: Option<string>,
    maturity: Option<string>,
    keyTech: Option<string>,
    details: Option<string>)

  /** `value || fallback` for an optional string. */
  function Or(value: Option<string>, fallback: string): (r: string)
    ensures Truthy(value) ==> r == value.value
    ensures !Truthy(value) ==> r == fallback
  {
    if Truthy(value) then value.value else fallback
  }

  const DefaultName: string := "Unnamed Concept"
  const DefaultCategory: string := "Techniques"
  const DefaultImpact: string := "Medium"
  const DefaultMaturity: string := "Assess"

  /** One row of the `results.data.map(...)`; `freshId` stands for the
      random identifier drawn for a row without one. */
  function RowToTerm(row: Row, freshId: string): (t: Term)
    ensures t.name != "" && t.category != "" && t.impact != "" && t.maturity != ""
    ensures t.details.Some? && t.keyTech.Some? && t.deepDive.None?
  {
    Term(
      id := Or(row.id, freshId),
      name := Or(row.name, DefaultName),
      category := Or(row.category, DefaultCategory),
      description := Or(row.description, ""),
      impact := Or(row.impact, DefaultImpact),
      maturity := Or(row.maturity, DefaultMaturity),
      details := Some(Or(row.details, "")),
      keyTech := Some(Or(row.keyTech, "")),
      deepDive := None)
  }

  /** The row a term reads back as when written to a sheet, with empty
      cells for empty values. */
  function TermToRow(t: Term): Row
  {
    Row(Cell(t.id), Cell(t.name), Cell(t.category), Cell(t.description),
        Cell(t.impact), Cell(t.maturity), Cell(Or(t.keyTech, "")), Cell(Or(t.details, "")))
  }

  function Cell(s: string): (c: Option<string>)
    ensures Truthy(c) <==> s != ""
  {
    if s == "" then None else Some(s)
  }

  /** A term whose fields are all filled in, as the row map produces
      them, survives writing to a row and reading back. */
  lemma RowRoundTrip(t: Term, freshId: string)
    requires t.id != "" && t.name != "" && t.category != "" && t.impact != "" && t.maturity != ""
    requires t.details.Some? && t.keyTech.Some? && t.deepDive.None?
    ensures RowToTerm(TermToRow(t), freshId) == t
  {
  }

  /** Filled-in cells are copied unchanged; an empty or missing cell takes
      the column's default. */
  lemma RowDefaults(row: Row, freshId: string)
    ensures var t := RowToTerm(row, freshId);
      && (t.id == if Truthy(row.id) then row.id.value else freshId)
      && (t.name == if Truthy(row.name) then row.name.value else DefaultName)
      && (t.category == if Truthy(row.category) then row.category.value else DefaultCategory)
      && (t.impact == if Truthy(row.impact) then row.impact.value else DefaultImpact)
      && (t.maturity == if Truthy(row.maturity) then row.maturity.value else DefaultMaturity)
      && (t.description == if Truthy(row.description) then row.description.value else "")
      && (t.details == Some(if Truthy(row.details) then row.details.value else ""))
      && (t.keyTech == Some(if Truthy(row.keyTech) then row.keyTech.value else ""))
      && t.deepDive.None?
  {
  }

  /** `results.data.map(...)`: one term per row, in row order. */
  function RowsToTerms(rows: seq<Row>, freshId: nat -> string): (terms: seq<Term>)
    ensures |terms| == |rows|
    ensures forall i :: 0 <= i < |rows| ==> terms[i] == RowToTerm(rows[i], freshId(i))
  {
    seq(|rows|, i requires 0 <= i < |rows| => RowToTerm(rows[i], freshId(i)))
  }

  /** What the sheet request came to: unreachable (network failure or a
      non-OK response), parsed rows, or a parser error. */
  datatype Fetched = Unreachable | Parsed(rows: seq<Row>) | ParseError(message: string)

  /** The state the loader leaves: a dataset, or an error message. */
  datatype Loaded = Dataset(terms: seq<Term>) | Failed(message: string)

  /** `loadCompetencies`: the bundled dataset unless a configured sheet
      parses. */
  function Load(url: string, bundled: seq<Term>, fetched: Fetched, freshId: nat -> string): (r: Loaded)
    ensures !IsSheetConfigured(url) ==> r == Dataset(bundled)
    ensures IsSheetConfigured(url) && fetched.Unreachable? ==> r == Dataset(bundled)
    ensures IsSheetConfigured(url) && fetched.Parsed? ==> r == Dataset(RowsToTerms(fetched.rows, freshId))
    ensures r.Failed? <==> IsSheetConfigured(url) && fetched.ParseError?
  {
    if !IsSheetConfigured(url) then Dataset(bundled)
    else
      match fetched
      case Unreachable => Dataset(bundled)
      case Parsed(rows) => Dataset(RowsToTerms(rows, freshId))
      case ParseError(message) => Failed("Data Stream Error: " + message)
  }

  /** A sheet row missing its category and maturity is drawn on the radar
      in the Techniques quadrant, Assess ring. */
  lemma DefaultedRowIsOnRadar(row: Row, freshId: string)
    requires !Truthy(row.category) && !Truthy(row.maturity)
    ensures var t := RowToTerm(row, freshId);
      && TechnicalRadar.OnRadar(t)
      && TechnicalRadar.SegmentOf(t) == 4 * 2 + 2
  {
  }

  /** `toggleTheme`: dark becomes light, anything else dark. */
  function ToggleTheme(theme: string): (r: string)
    ensures r == "light" || r == "dark"
    ensures r != theme
    ensures r == "light" <==> theme == "dark"
  {
    if theme == "dark" then "light" else "dark"
  }

  /** Toggling twice gives back the theme exactly when it is one of the
      two themes. */
  lemma ToggleTwice(theme: string)
    ensures ToggleTheme(ToggleTheme(theme)) == theme <==> theme == "light" || theme == "dark"
  {
  }

  /** The stored theme, or light when there is none. */
  function InitialTheme(stored: Option<string>): (theme: string)
    ensures Truthy(stored) ==> theme == stored.value
    ensures !Truthy(stored) ==> theme == "light"
  {
    Or(stored, "light")
  }

  /** The theme effect stores every theme the toggle sets, and a reload
      reads it back: a toggled theme survives a reload. */
  lemma ThemeSurvivesReload(theme: string)
    ensures InitialTheme(Some(ToggleTheme(theme))) == ToggleTheme(theme)
    ensures InitialTheme(Some(theme)) == theme <==> theme != ""
  {
  }
}

=== FILE: glossary_view.dfy ===
/**
  The glossary view's derived list: the category chips offered above the
  term grid, `['All', ...Array.from(new Set(categories)).sort()]`.
*/
module GlossaryView {
  import opened JsStrings
  import opened Seqs
  import opened Terms

  const AllChip: string := "All"

  /** `allCompetencies.map(i => i.category)`. */
  function CategoriesOf(all: seq<Term>): (cats: seq<string>)
    ensures |cats| == |all|
    ensures forall i :: 0 <= i < |all| ==> cats[i] == all[i].category
  {
    seq(|all|, i requires 0 <= i < |all| => all[i].category)
  }

  /** The default `sort` order: UTF-16 code units compared lexicographically. */
  function CodeUnitKey(s: string): seq<int>
  {
    CodeUnits(s)
  }

  /** Some term of `all` carries category `c`. */
  predicate HasCategory(all: seq<Term>, c: string)
  {
    exists i :: 0 <= i < |all| && all[i].category == c
  }

  /** The chips: "All", then every category that occurs, once each, in
      code-unit order. */
  function Categories(all: seq<Term>): (chips: seq<string>)
    ensures |chips| >= 1 && chips[0] == AllChip
    ensures forall c :: c in chips[1..] <==> HasCategory(all, c)
    ensures Distinct(chips[1..])
    ensures SortedBy(chips[1..], CodeUnitKey)
  {
    var cats := CategoriesOf(all);
    var unique := Dedup(cats);
    var sorted := SortBy(unique, CodeUnitKey);
    assert forall c :: c in sorted <==> c in unique by {
      forall c ensures c in sorted <==> c in unique {
        assert c in sorted <==> c in multiset(sorted);
        assert c in unique <==> c in multiset(unique);
      }
    }
    forall c ensures c in cats <==> HasCategory(all, c) {
      if c in cats {
        var i :| 0 <= i < |cats| && cats[i] == c;
        assert all[i].category == c;
      }
      if HasCategory(all, c) {
        var i :| 0 <= i < |all| && all[i].category == c;
        assert cats[i] == c;
      }
    }
    DistinctPermutation(unique, sorted);
    var chips := [AllChip] + sorted;
    assert chips[1..] == sorted;
    chips
  }

  /** The chip list does not depend on the order of the terms or on how
      often a category is repeated: terms with the same categories give the
      same chips. */
  lemma {:induction false} CategoriesDependOnlyOnCategorySet(all: seq<Term>, all': seq<Term>)
    requires forall c :: HasCategory(all, c) <==> HasCategory(all', c)
    ensures Categories(all) == Categories(all')
  {
    var xs, ys := Categories(all)[1..], Categories(all')[1..];
    assert forall c :: c in xs <==> c in ys;
    SortedDistinctUnique(xs, ys);
    assert Categories(all) == [AllChip] + xs;
    assert Categories(all') == [AllChip] + ys;
  }

  /** Two duplicate-free sorted lists of the same strings are equal, since
      different strings have different code-unit sequences. */
  lemma {:induction false} SortedDistinctUnique(xs: seq<string>, ys: seq<string>)
    requires Distinct(xs) && Distinct(ys)
    requires SortedBy(xs, CodeUnitKey) && SortedBy(ys, CodeUnitKey)
    requires forall c :: c in xs <==> c in ys
    ensures xs == ys
    decreases |xs|
  {
    if |xs| > 0 {
      assert xs[0] in ys;
    }
    if |ys| > 0 {
      assert ys[0] in xs;
    }
    if |xs| > 0 && |ys| > 0 {
      SameHead(xs, ys);
      SameTail(xs, ys);
      SortedDistinctUnique(xs[1..], ys[1..]);
      assert xs == [xs[0]] + xs[1..];
      assert ys == [ys[0]] + ys[1..];
    }
  }

  /** Both lists start with their least string. */
  lemma SameHead(xs: seq<string>, ys: seq<string>)
    requires |xs| > 0 && |ys| > 0
    requires SortedBy(xs, CodeUnitKey) && SortedBy(ys, CodeUnitKey)
    requires xs[0] in ys && ys[0] in xs
    ensures xs[0] == ys[0]
  {
    var x, y := xs[0], ys[0];
    var j :| 0 <= j < |ys| && ys[j] == x;
    var i :| 0 <= i < |xs| && xs[i] == y;
    if x != y {
      assert LexLe(CodeUnitKey(x), CodeUnitKey(y));
      assert LexLe(CodeUnitKey(y), CodeUnitKey(x));
      LexLeAntisymmetric(CodeUnitKey(x), CodeUnitKey(y));
      CodeUnitsInjective(x, y);
    }
  }

  /** With the head in common and no repeats, the tails hold the same strings. */
  lemma SameTail(xs: seq<string>, ys: seq<string>)
    requires |xs| > 0 && |ys| > 0 && xs[0] == ys[0]
    requires Distinct(xs) && Distinct(ys)
    requires forall c :: c in xs <==> c in ys
    ensures forall c :: c in xs[1..] <==> c in ys[1..]
  {
    forall c | c in xs[1..] ensures c in ys[1..] {
      TailMember(xs, ys, c);
    }
    forall c | c in ys[1..] ensures c in xs[1..] {
      TailMember(ys, xs, c);
    }
  }

  lemma TailMember(xs: seq<string>, ys: seq<string>, c: string)
    requires |xs| > 0 && |ys| > 0 && xs[0] == ys[0]
    requires Distinct(xs) && c in xs[1..] && c in ys
    ensures c in ys[1..]
  {
    var k :| 0 <= k < |xs[1..]| && xs[1..][k] == c;
    assert xs[k + 1] == c && c != xs[0];
    var m :| 0 <= m < |ys| && ys[m] == c;
    assert ys[1..][m - 1] == c;
  }
}

=== FILE: js_numbers.dfy ===
/**
  The JavaScript number operations the radar layout uses, on integer and
  real values: the ToInt32 conversion behind the bitwise operators, `<<`,
  `>>`, the truncating `%`, `Math.abs`, `Math.ceil` and the
  `Math.max(lo, Math.min(hi, v))` clamp.
*/
module JsNumbers {

  const TwoTo32: int := 0x1_0000_0000
  const TwoTo31: int := 0x8000_0000

  /** ToInt32 on an integral number: reduce modulo 2^32 into [-2^31, 2^31). */
  function ToInt32(x: int): (r: int)
    ensures -TwoTo31 <= r < TwoTo31
    ensures (x - r) % TwoTo32 == 0
  {
    var m := x % TwoTo32;
    if m >= TwoTo31 then m - TwoTo32 else m
  }

  function Pow2(n: nat): (r: nat)
    ensures r >= 1
  {
    if n == 0 then 1 else 2 * Pow2(n - 1)
  }

  /** `x << n` for 0 <= n < 32. */
  function ShiftLeft(x: int, n: nat): int
    requires n < 32
  {
    ToInt32(ToInt32(x) * Pow2(n))
  }

  /** `x >> n` for 0 <= n < 32: sign-propagating, i.e. floor division of the
      32-bit value (Dafny's `/` by a positive divisor rounds down). */
  function ShiftRight(x: int, n: nat): int
    requires n < 32
  {
    ToInt32(x) / Pow2(n)
  }

  /** JavaScript's `%` on integers: the remainder takes the sign of the dividend. */
  function JsRem(a: int, b: int): (r: int)
    requires b > 0
    ensures -b < r < b
    ensures a >= 0 ==> 0 <= r
    ensures a <= 0 ==> r <= 0
  {
    if a >= 0 then a % b else -((-a) % b)
  }

  function Abs(x: int): (r: nat)
    ensures r == x || r == -x
  {
    if x < 0 then -x else x
  }

  /** `Math.ceil` on reals. */
  function Ceil(x: real): (r: int)
    ensures x <= r as real < x + 1.0
  {
    -((-x).Floor)
  }

  function Min(a: real, b: real): real { if a <= b then a else b }
  function Max(a: real, b: real): real { if a >= b then a else b }

  /** `Math.max(lo, Math.min(hi, v))`. */
  function Clamp(lo: real, hi: real, v: real): (r: real)
    requires lo <= hi
    ensures lo <= r <= hi
    ensures lo <= v <= hi ==> r == v
  {
    Max(lo, Min(hi, v))
  }
}

=== FILE: js_strings.dfy ===
/**
  String primitives with the semantics of the JavaScript built-ins the
  application relies on: `trim`, `split` on a one-character separator,
  `join`, `includes`, `startsWith`, `toLowerCase` (the part of it that can
  matter for ASCII keywords), `charCodeAt` (UTF-16 code units) and the
  code-unit ordering used by the default `Array.prototype.sort`.
*/
module JsStrings {

  /** A UTF-16 code unit, the value `charCodeAt` returns. */
  type CodeUnit = x: int | 0 <= x < 0x1_0000

  /** The characters JavaScript's `trim` removes and `\s` matches:
      WhiteSpace (TAB, VT, FF, SP, NBSP, ZWNBSP and every Zs character)
      and LineTerminator (LF, CR, LS, PS). */
  predicate IsJsWhitespace(c: char)
  {
    || c == '\t' || c == '\U{000B}' || c == '\U{000C}' || c == ' '
    || c == '\n' || c == '\r' || c == '\U{2028}' || c == '\U{2029}'
    || c == '\U{00A0}' || c == '\U{FEFF}'
    || c == '\U{1680}' || ('\U{2000}' <= c <= '\U{200A}')
    || c == '\U{202F}' || c == '\U{205F}' || c == '\U{3000}'
  }

  predicate AllWhitespace(s: string)
  {
    forall i :: 0 <= i < |s| ==> IsJsWhitespace(s[i])
  }

  lemma AllWhitespaceCons(c: char, s: string)
    requires IsJsWhitespace(c) && AllWhitespace(s)
    ensures AllWhitespace([c] + s)
  {
    forall i | 0 <= i < |[c] + s| ensures IsJsWhitespace(([c] + s)[i]) {
      if i > 0 {
        assert ([c] + s)[i] == s[i - 1];
      }
    }
  }

  lemma AllWhitespaceSnoc(s: string, c: char)
    requires AllWhitespace(s) && IsJsWhitespace(c)
    ensures AllWhitespace(s + [c])
  {
    forall i | 0 <= i < |s + [c]| ensures IsJsWhitespace((s + [c])[i]) {
      if i < |s| {
        assert (s + [c])[i] == s[i];
      }
    }
  }

  lemma AllWhitespaceAppend(a: string, b: string)
    requires AllWhitespace(a) && AllWhitespace(b)
    ensures AllWhitespace(a + b)
  {
    forall i | 0 <= i < |a + b| ensures IsJsWhitespace((a + b)[i]) {
      if i >= |a| {
        assert (a + b)[i] == b[i - |a|];
      }
    }
  }

  /** No leading and no trailing whitespace. */
  predicate IsTrimmed(s: string)
  {
    |s| == 0 || (!IsJsWhitespace(s[0]) && !IsJsWhitespace(s[|s| - 1]))
  }

  /** The length of the whitespace run `s` starts with. */
  function LeadingWhitespace(s: string): (k: nat)
    ensures k <= |s| && AllWhitespace(s[..k])
    ensures k == |s| || !IsJsWhitespace(s[k])
  {
    if |s| > 0 && IsJsWhitespace(s[0]) then
      var k := LeadingWhitespace(s[1..]);
      AllWhitespaceCons(s[0], s[1..][..k]);
      assert s[..k + 1] == [s[0]] + s[1..][..k];
      k + 1
    else
      0
  }

  function TrimStart(s: string): (r: string)
    ensures exists k :: 0 <= k <= |s| && r == s[k..] && AllWhitespace(s[..k])
    ensures |r| == 0 || !IsJsWhitespace(r[0])
  {
    var k := LeadingWhitespace(s);
    s[k..]
  }

  function TrimEnd(s: string): (r: string)
    ensures exists k :: 0 <= k <= |s| && r == s[..k] && AllWhitespace(s[k..])
    ensures |r| == 0 || !IsJsWhitespace(r[|r| - 1])
  {
    if |s| > 0 && IsJsWhitespace(s[|s| - 1]) then
      var s' := s[..|s| - 1];
      var r := TrimEnd(s');
      var k :| 0 <= k <= |s'| && r == s'[..k] && AllWhitespace(s'[k..]);
      AllWhitespaceSnoc(s'[k..], s[|s| - 1]);
      assert s[k..] == s'[k..] + [s[|s| - 1]];
      assert r == s[..k];
      r
    else
      assert s == s[..|s|];
      s
  }

  /** `String.prototype.trim`: the longest infix between whitespace runs. */
  function Trim(s: string): (r: string)
    ensures IsTrimmed(r)
    ensures exists i, j :: 0 <= i <= j <= |s| && r == s[i..j] && AllWhitespace(s[..i]) && AllWhitespace(s[j..])
  {
    var t := TrimEnd(s);
    var k :| 0 <= k <= |s| && t == s[..k] && AllWhitespace(s[k..]);
    var r := TrimStart(t);
    var i := LeadingWhitespace(t);
    assert r == t[i..] == s[i..k];
    assert s[..i] == t[..i];
    assert |r| == 0 || r[|r| - 1] == t[|t| - 1];
    r
  }

  lemma TrimOfTrimmed(s: string)
    requires IsTrimmed(s)
    ensures Trim(s) == s
  {
  }

  /** Trailing whitespace is invisible to `trimEnd`. */
  lemma {:induction false} TrimEndAppendWhitespace(s: string, w: string)
    requires AllWhitespace(w)
    ensures TrimEnd(s + w) == TrimEnd(s)
    decreases |w|
  {
    if |w| > 0 {
      var w' := w[..|w| - 1];
      assert (s + w)[..|s + w| - 1] == s + w';
      TrimEndAppendWhitespace(s, w');
    } else {
      assert s + w == s;
    }
  }

  /** Trailing whitespace is invisible to `trim`. */
  lemma TrimAppendWhitespace(s: string, w: string)
    requires AllWhitespace(w)
    ensures Trim(s + w) == Trim(s)
  {
    TrimEndAppendWhitespace(s, w);
  }

  /** Where `trim` cuts `s`: the kept infix is empty exactly when `s` is
      all whitespace. */
  lemma TrimSpan(s: string) returns (i: nat, j: nat)
    ensures i <= j <= |s| && Trim(s) == s[i..j]
    ensures AllWhitespace(s[..i]) && AllWhitespace(s[j..])
    ensures i == j <==> AllWhitespace(s)
  {
    i, j :| i <= j <= |s| && Trim(s) == s[i..j] && AllWhitespace(s[..i]) && AllWhitespace(s[j..]);
    if i == j {
      assert s == s[..i] + s[j..];
      AllWhitespaceAppend(s[..i], s[j..]);
    } else {
      assert Trim(s)[0] == s[i];
    }
  }

  /** `trim` keeps exactly a non-empty trimmed middle framed by whitespace. */
  lemma TrimUnique(a: string, m: string, b: string)
    requires AllWhitespace(a) && AllWhitespace(b)
    requires |m| > 0 && IsTrimmed(m)
    ensures Trim(a + m + b) == m
  {
    var s := a + m + b;
    var p, q := |a|, |a| + |m|;
    assert s[..p] == a && s[p..q] == m && s[q..] == b;
    TrimUniqueAt(s, p, q);
  }

  /** The same, for the middle given by its bounds. */
  lemma TrimUniqueAt(s: string, p: nat, q: nat)
    requires p < q <= |s| && IsTrimmed(s[p..q])
    requires AllWhitespace(s[..p]) && AllWhitespace(s[q..])
    ensures Trim(s) == s[p..q]
  {
    var i, j := TrimSpan(s);
    SpanUnique(s, i, j, p, q);
  }

  /** Two cuts into whitespace runs and a trimmed, non-empty middle agree. */
  lemma SpanUnique(s: string, i: nat, j: nat, p: nat, q: nat)
    requires i <= j <= |s| && IsTrimmed(s[i..j])
    requires AllWhitespace(s[..i]) && AllWhitespace(s[j..])
    requires p < q <= |s| && IsTrimmed(s[p..q])
    requires AllWhitespace(s[..p]) && AllWhitespace(s[q..])
    ensures i == p && j == q
  {
    assert s[p] == s[p..q][0] && s[q - 1] == s[p..q][q - p - 1];
    WhitespacePrefixBound(s, i, p);
    WhitespaceSuffixBound(s, j, q - 1);
    assert s[i] == s[i..j][0] && s[j - 1] == s[i..j][j - i - 1];
    WhitespacePrefixBound(s, p, i);
    WhitespaceSuffixBound(s, q, j - 1);
  }

  /** A whitespace prefix ends before any visible character. */
  lemma WhitespacePrefixBound(s: string, i: nat, p: nat)
    requires i <= |s| && AllWhitespace(s[..i])
    requires p < |s| && !IsJsWhitespace(s[p])
    ensures i <= p
  {
  }

  /** A whitespace suffix starts after any visible character. */
  lemma WhitespaceSuffixBound(s: string, j: nat, p: nat)
    requires j <= |s| && AllWhitespace(s[j..])
    requires p < |s| && !IsJsWhitespace(s[p])
    ensures p < j
  {
  }

  /** `String.prototype.split(sep)` for a one-character separator. */
  function SplitOn(s: string, sep: char): (r: seq<string>)
    ensures |r| >= 1
    ensures forall i :: 0 <= i < |r| ==> sep !in r[i]
  {
    if |s| == 0 then [""]
    else if s[0] == sep then [""] + SplitOn(s[1..], sep)
    else
      var rest := SplitOn(s[1..], sep);
      [[s[0]] + rest[0]] + rest[1..]
  }

  /** `Array.prototype.join(sep)` for a one-character separator. */
  function Join(parts: seq<string>, sep: char): string
  {
    if |parts| == 0 then ""
    else if |parts| == 1 then parts[0]
    else parts[0] + [sep] + Join(parts[1..], sep)
  }

  /** Joining the pieces of a split gives back the original string. */
  lemma {:induction false} JoinSplit(s: string, sep: char)
    ensures Join(SplitOn(s, sep), sep) == s
  {
    if |s| == 0 {
    } else if s[0] == sep {
      JoinSplit(s[1..], sep);
      assert s == [sep] + s[1..];
    } else {
      JoinSplit(s[1..], sep);
      var rest := SplitOn(s[1..], sep);
      if |rest| == 1 {
        assert s == [s[0]] + s[1..];
      } else {
        assert rest == [rest[0]] + rest[1..];
        assert s == [s[0]] + s[1..];
      }
    }
  }

  /** Splitting a joined sequence of separator-free pieces gives back the pieces. */
  lemma {:induction false} SplitJoin(parts: seq<string>, sep: char)
    requires |parts| >= 1
    requires forall i :: 0 <= i < |parts| ==> sep !in parts[i]
    ensures SplitOn(Join(parts, sep), sep) == parts
  {
    if |parts| == 1 {
      SplitWithoutSeparator(parts[0], sep);
    } else {
      SplitJoin(parts[1..], sep);
      SplitAfterHead(parts[0], Join(parts[1..], sep), sep);
      assert parts == [parts[0]] + parts[1..];
    }
  }

  lemma {:induction false} SplitWithoutSeparator(s: string, sep: char)
    requires sep !in s
    ensures SplitOn(s, sep) == [s]
  {
    if |s| > 0 {
      SplitWithoutSeparator(s[1..], sep);
      assert s == [s[0]] + s[1..];
    }
  }

  /** A separator-free head is split off as the first piece. */
  lemma {:induction false} SplitAfterHead(h: string, x: string, sep: char)
    requires sep !in h
    ensures SplitOn(h + [sep] + x, sep) == [h] + SplitOn(x, sep)
  {
    if |h| == 0 {
      assert h + [sep] + x == [sep] + x;
      assert ([sep] + x)[1..] == x;
    } else {
      SplitAfterHead(h[1..], x, sep);
      assert (h + [sep] + x)[1..] == h[1..] + [sep] + x;
      assert h == [h[0]] + h[1..];
    }
  }

  predicate StartsWith(s: string, prefix: string)
  {
    |prefix| <= |s| && s[..|prefix|] == prefix
  }

  /** `String.prototype.includes`: `key` occurs somewhere in `s`. */
  predicate Includes(s: string, key: string)
  {
    StartsWith(s, key) || (|s| > 0 && Includes(s[1..], key))
  }

  lemma IncludesSelf(s: string)
    ensures Includes(s, s)
  {
  }

  /** An occurrence at any position is found by `includes`. */
  lemma {:induction false} IncludesAt(s: string, k: nat, key: string)
    requires k + |key| <= |s| && s[k..k + |key|] == key
    ensures Includes(s, key)
  {
    if k > 0 {
      assert s[1..][k - 1..k - 1 + |key|] == s[k..k + |key|];
      IncludesAt(s[1..], k - 1, key);
    }
  }

  /** A string cannot contain a key whose first character it lacks. */
  lemma {:induction false} NotIncludesWithoutFirstChar(s: string, key: string)
    requires |key| > 0 && key[0] !in s
    ensures !Includes(s, key)
  {
    if |s| > 0 {
      assert s[0] in s;
      NotIncludesWithoutFirstChar(s[1..], key);
    }
  }

  /** A character-free prefix cannot contribute to an occurrence of `key`. */
  lemma {:induction false} IncludesDropPrefix(x: string, y: string, key: string)
    requires |key| > 0 && key[0] !in x
    ensures Includes(x + y, key) == Includes(y, key)
  {
    if |x| > 0 {
      assert x[0] in x;
      assert (x + y)[1..] == x[1..] + y;
      IncludesDropPrefix(x[1..], y, key);
    } else {
      assert x + y == y;
    }
  }

  /** A suffix free of `key`'s characters cannot contribute to an occurrence of `key`. */
  lemma {:induction false} IncludesDropSuffix(y: string, z: string, key: string)
    requires forall i :: 0 <= i < |key| ==> key[i] !in z
    ensures Includes(y + z, key) ==> Includes(y, key)
  {
    if Includes(y + z, key) {
      if StartsWith(y + z, key) {
        OverhangingKeyMeetsSuffix(y, z, key);
        assert (y + z)[..|key|] == y[..|key|];
      } else if |y| == 0 {
        assert y + z == z;
        if |key| == 0 {
        } else {
          NotIncludesWithoutFirstChar(z, key);
        }
      } else {
        assert (y + z)[1..] == y[1..] + z;
        IncludesDropSuffix(y[1..], z, key);
      }
    }
  }

  lemma OverhangingKeyMeetsSuffix(y: string, z: string, key: string)
    ensures StartsWith(y + z, key) && |key| > |y| ==> key[|y|] in z
  {
    if StartsWith(y + z, key) && |key| > |y| {
      assert key[|y|] == (y + z)[|y|] == z[0];
    }
  }

  /** The one-character effect of `toLowerCase` on characters that can take
      part in matching a lower-case ASCII keyword: ASCII capitals become
      lower case and KELVIN SIGN (U+212A) becomes 'k'. Every other
      character either maps to itself, or to characters that are not ASCII
      letters, or (U+0130) to "i" followed by U+0307, which cannot be
      followed by a further ASCII letter; none of them can complete an
      ASCII keyword either way. */
  function LowerChar(c: char): (d: char)
    ensures IsJsWhitespace(d) == IsJsWhitespace(c)
  {
    if 'A' <= c <= 'Z' then (c as int + 32) as char
    else if c == '\U{212A}' then 'k'
    else c
  }

  function ToLower(s: string): (r: string)
    ensures |r| == |s|
    ensures forall i :: 0 <= i < |s| ==> r[i] == LowerChar(s[i])
  {
    seq(|s|, i requires 0 <= i < |s| => LowerChar(s[i]))
  }

  /** Lowering keeps a trimmed string trimmed. */
  lemma ToLowerTrimmed(s: string)
    requires IsTrimmed(s)
    ensures IsTrimmed(ToLower(s))
  {
  }

  /** Lowering works character by character. */
  lemma ToLowerAppend(a: string, b: string)
    ensures ToLower(a + b) == ToLower(a) + ToLower(b)
  {
    assert forall i :: 0 <= i < |a + b| ==> ToLower(a + b)[i] == (ToLower(a) + ToLower(b))[i];
  }

  /** Lowering keeps whitespace whitespace. */
  lemma ToLowerWhitespace(w: string)
    requires AllWhitespace(w)
    ensures AllWhitespace(ToLower(w))
  {
  }

  /** The UTF-16 encoding of one character: one unit in the Basic
      Multilingual Plane, a surrogate pair above it. */
  function Utf16(c: char): (units: seq<CodeUnit>)
    ensures 1 <= |units| <= 2
    ensures |units| == 1 <==> c as int < 0x1_0000
  {
    var v := c as int;
    if v < 0x1_0000 then [v]
    else [0xD800 + (v - 0x1_0000) / 0x400, 0xDC00 + (v - 0x1_0000) % 0x400]
  }

  /** The code units `charCodeAt` walks over. */
  function CodeUnits(s: string): (units: seq<CodeUnit>)
    ensures |s| <= |units| <= 2 * |s|
  {
    if |s| == 0 then [] else Utf16(s[0]) + CodeUnits(s[1..])
  }

  /** A character's first unit is a high surrogate exactly when the
      character takes two units; characters are never surrogates. */
  lemma Utf16Lead(c: char)
    ensures 0xD800 <= Utf16(c)[0] < 0xDC00 <==> |Utf16(c)| == 2
  {
  }

  lemma Utf16Injective(c: char, d: char)
    ensures Utf16(c) == Utf16(d) ==> c == d
  {
    var v, w := c as int, d as int;
    if Utf16(c) == Utf16(d) && v >= 0x1_0000 {
      assert v - 0x1_0000 == (v - 0x1_0000) / 0x400 * 0x400 + (v - 0x1_0000) % 0x400;
      assert w - 0x1_0000 == (w - 0x1_0000) / 0x400 * 0x400 + (w - 0x1_0000) % 0x400;
    }
  }

  /** Different strings have different code units: the encoding can be
      read back one character at a time. */
  lemma {:induction false} CodeUnitsInjective(s: string, t: string)
    ensures CodeUnits(s) == CodeUnits(t) ==> s == t
  {
    if CodeUnits(s) == CodeUnits(t) && |s| > 0 && |t| > 0 {
      var a, b := Utf16(s[0]), Utf16(t[0]);
      Utf16Lead(s[0]);
      Utf16Lead(t[0]);
      assert CodeUnits(s)[0] == a[0] && CodeUnits(t)[0] == b[0];
      assert |a| == |b|;
      assert a == CodeUnits(s)[..|a|] && b == CodeUnits(t)[..|b|];
      Utf16Injective(s[0], t[0]);
      assert CodeUnits(s[1..]) == CodeUnits(s)[|a|..] == CodeUnits(t)[|b|..] == CodeUnits(t[1..]);
      CodeUnitsInjective(s[1..], t[1..]);
      assert s == [s[0]] + s[1..] && t == [t[0]] + t[1..];
    }
  }

  /** On Basic-Multilingual-Plane text each character is one code unit. */
  lemma {:induction false} CodeUnitsOfBmp(s: string)
    requires forall i :: 0 <= i < |s| ==> s[i] as int < 0x1_0000
    ensures |CodeUnits(s)| == |s|
    ensures forall i :: 0 <= i < |s| ==> CodeUnits(s)[i] == s[i] as int
  {
    if |s| > 0 {
      CodeUnitsOfBmp(s[1..]);
    }
  }

  /** Lexicographic order on integer sequences (a proper prefix is smaller):
      the order of JavaScript's relational operators on strings when applied
      to code units, and of collation sort keys. */
  predicate LexLe(a: seq<int>, b: seq<int>)
  {
    |a| == 0 || (|b| > 0 && (a[0] < b[0] || (a[0] == b[0] && LexLe(a[1..], b[1..]))))
  }

  lemma {:induction false} LexLeTotal(a: seq<int>, b: seq<int>)
    ensures LexLe(a, b) || LexLe(b, a)
  {
    if |a| > 0 && |b| > 0 && a[0] == b[0] {
      LexLeTotal(a[1..], b[1..]);
    }
  }

  lemma {:induction false} LexLeTransitive(a: seq<int>, b: seq<int>, c: seq<int>)
    requires LexLe(a, b) && LexLe(b, c)
    ensures LexLe(a, c)
  {
    if |a| > 0 && a[0] == b[0] && b[0] == c[0] {
      LexLeTransitive(a[1..], b[1..], c[1..]);
    }
  }

  lemma {:induction false} LexLeAntisymmetric(a: seq<int>, b: seq<int>)
    requires LexLe(a, b) && LexLe(b, a)
    ensures a == b
  {
    if |a| > 0 {
      LexLeAntisymmetric(a[1..], b[1..]);
      assert a == [a[0]] + a[1..];
      assert b == [b[0]] + b[1..];
    }
  }
}

=== FILE: radar_view.dfy ===
/**
  The radar view's selection and list logic: the quadrant buttons and the
  radar's own quadrant clicks, and below the chart one section per
  quadrant listing that quadrant's terms sorted by name, with a count,
  dimmed while another quadrant is selected.
*/
module RadarView {
  import opened JsStrings
  import opened Seqs
  import opened Terms
  import TechnicalRadar

  /** The order of the quadrant buttons and of the list sections. */
  const ListQuadrants: seq<string> := ["Techniques", "Platforms", "Tools", "Governance"]

  /** A quadrant button: clicking the selected quadrant clears the
      selection, clicking any other selects it. */
  function ButtonClick(selected: Option<string>, q: string): (r: Option<string>)
    ensures r.None? <==> selected == Some(q)
    ensures r.Some? ==> r.value == q
  {
    if selected == Some(q) then None else Some(q)
  }

  /** A click on the radar's quadrant always selects it. */
  function RadarClick(selected: Option<string>, q: string): (r: Option<string>)
    ensures r.Some? && r.value == q
  {
    Some(q)
  }

  /** Clicking the same button twice restores the selection exactly when
      nothing, or that very quadrant, was selected before. */
  lemma ButtonClickTwice(selected: Option<string>, q: string)
    ensures ButtonClick(ButtonClick(selected, q), q) == selected <==> selected == None || selected == Some(q)
  {
  }

  /** The button and the radar agree except on the already selected quadrant,
      which the button clears and the radar keeps. */
  lemma ClicksAgree(selected: Option<string>, q: string)
    ensures ButtonClick(selected, q) == RadarClick(selected, q) <==> selected != Some(q)
  {
  }

  /** A radar click on a quadrant zooms the chart onto it. */
  lemma RadarClickZooms(selected: Option<string>, q: string)
    requires q in TechnicalRadar.Quadrants
    ensures TechnicalRadar.GetViewBox(RadarClick(selected, q)).width == TechnicalRadar.Center + 5
  {
  }

  /** `selectedQuadrant && selectedQuadrant !== quad`. */
  predicate Dimmed(selected: Option<string>, quad: string)
  {
    Truthy(selected) && selected.value != quad
  }

  /** A list section is dimmed exactly when the radar dims the blips of the
      same quadrant. */
  lemma DimmedIffBlipsInactive(selected: Option<string>, quad: string)
    ensures Dimmed(selected, quad) <==> !TechnicalRadar.IsBlipActive(selected, quad)
  {
  }

  /** `i => i.category === quad`. */
  function CategoryIs(quad: string): Term -> bool
  {
    (t: Term) => t.category == quad
  }

  /** The `a.name.localeCompare(b.name)` order, given by the collation key
      of each name. */
  function NameKey(collate: string -> seq<int>): Term -> seq<int>
  {
    (t: Term) => collate(t.name)
  }

  /** One rendered section: the quadrant, its sorted items, the count shown
      next to the heading, and whether it is dimmed. */
  datatype Section = Section(quadrant: string, items: seq<Term>, count: nat, dimmed: bool)

  /** What a section of quadrant `s.quadrant` must show. */
  predicate Faithful(all: seq<Term>, selected: Option<string>, collate: string -> seq<int>, s: Section)
  {
    && multiset(s.items) == multiset(Filter(all, CategoryIs(s.quadrant)))
    && SortedBy(s.items, NameKey(collate))
    && s.count == CountWhere(all, CategoryIs(s.quadrant))
    && s.count > 0
    && s.dimmed == Dimmed(selected, s.quadrant)
  }

  /** Some term carries the category `quad`. */
  predicate Populated(all: seq<Term>, quad: string)
  {
    exists i :: 0 <= i < |all| && all[i].category == quad
  }

  function IsPopulated(all: seq<Term>): string -> bool
  {
    q => Populated(all, q)
  }

  /** The section of one quadrant, or nothing when it has no terms. */
  function QuadrantSection(all: seq<Term>, selected: Option<string>, collate: string -> seq<int>, quad: string): (r: Option<Section>)
    ensures r.None? <==> !Populated(all, quad)
    ensures r.Some? ==> r.value.quadrant == quad
  {
    var quadItems := Filter(all, CategoryIs(quad));
    FilterEmptyIff(all, CategoryIs(quad));
    if |quadItems| == 0 then None
    else Some(Section(quad, SortBy(quadItems, NameKey(collate)), |quadItems|, Dimmed(selected, quad)))
  }

  /** A shown section lists exactly its quadrant's terms, sorted by name,
      counts them, and is dimmed as the selection says. */
  lemma QuadrantSectionFaithful(all: seq<Term>, selected: Option<string>, collate: string -> seq<int>, quad: string)
    requires Populated(all, quad)
    ensures Faithful(all, selected, collate, QuadrantSection(all, selected, collate, quad).value)
  {
    FilterLengthIsCount(all, CategoryIs(quad));
  }

  function QuadrantsOf(sections: seq<Section>): (qs: seq<string>)
    ensures |qs| == |sections|
    ensures forall i :: 0 <= i < |sections| ==> qs[i] == sections[i].quadrant
  {
    seq(|sections|, i requires 0 <= i < |sections| => sections[i].quadrant)
  }

  /** `quads.map(...)` with the empty quadrants skipped. */
  function SectionsFor(all: seq<Term>, selected: Option<string>, collate: string -> seq<int>, quads: seq<string>): (r: seq<Section>)
    ensures forall i :: 0 <= i < |r| ==> QuadrantSection(all, selected, collate, r[i].quadrant) == Some(r[i])
    ensures QuadrantsOf(r) == Filter(quads, IsPopulated(all))
  {
    if |quads| == 0 then []
    else
      var rest := SectionsFor(all, selected, collate, quads[1..]);
      var section := QuadrantSection(all, selected, collate, quads[0]);
      if section.None? then
        rest
      else
        var r := [section.value] + rest;
        QuadrantsOfCons(section.value, rest);
        r
  }

  lemma QuadrantsOfCons(s: Section, rest: seq<Section>)
    ensures QuadrantsOf([s] + rest) == [s.quadrant] + QuadrantsOf(rest)
  {
  }

  /** The list below the chart: one section for each quadrant that has
      terms, in button order. */
  function ListSections(all: seq<Term>, selected: Option<string>, collate: string -> seq<int>): (r: seq<Section>)
    ensures QuadrantsOf(r) == Filter(ListQuadrants, IsPopulated(all))
  {
    SectionsFor(all, selected, collate, ListQuadrants)
  }

  /** Every section of the list is faithful to its quadrant. */
  lemma ListSectionsFaithful(all: seq<Term>, selected: Option<string>, collate: string -> seq<int>, i: int)
    requires 0 <= i < |ListSections(all, selected, collate)|
    ensures Faithful(all, selected, collate, ListSections(all, selected, collate)[i])
  {
    var r := ListSections(all, selected, collate);
    assert r[i].quadrant in Filter(ListQuadrants, IsPopulated(all)) by {
      assert QuadrantsOf(r)[i] == r[i].quadrant;
    }
    QuadrantSectionFaithful(all, selected, collate, r[i].quadrant);
  }

  /** Each term appears in its quadrant's section exactly as often as in
      the input, and in no other section. */
  lemma SectionItemsAreQuadrantTerms(all: seq<Term>, selected: Option<string>, collate: string -> seq<int>, i: int, t: Term)
    requires 0 <= i < |ListSections(all, selected, collate)|
    ensures var s := ListSections(all, selected, collate)[i];
      multiset(s.items)[t] == if t.category == s.quadrant then multiset(all)[t] else 0
  {
    var s := ListSections(all, selected, collate)[i];
    ListSectionsFaithful(all, selected, collate, i);
    FilterMultiplicity(all, CategoryIs(s.quadrant), t);
  }

  /** The list and the chart use the same four quadrants, in a different
      order. */
  lemma ListQuadrantsArePlotted()
    ensures multiset(ListQuadrants) == multiset(TechnicalRadar.Quadrants)
  {
  }

  /** Every term the chart draws is listed in the section of its quadrant. */
  lemma PlottedTermsAreListed(all: seq<Term>, selected: Option<string>, collate: string -> seq<int>, j: int)
    requires 0 <= j < |all| && TechnicalRadar.OnRadar(all[j])
    ensures var r := ListSections(all, selected, collate);
      exists i :: 0 <= i < |r| && r[i].quadrant == all[j].category && all[j] in r[i].items
  {
    var r := ListSections(all, selected, collate);
    var q := all[j].category;
    assert q in ListQuadrants;
    assert Populated(all, q);
    var k :| 0 <= k < |ListQuadrants| && ListQuadrants[k] == q;
    FilterMultiplicity(ListQuadrants, IsPopulated(all), q);
    assert q in multiset(ListQuadrants);
    assert q in QuadrantsOf(r);
    var i :| 0 <= i < |r| && QuadrantsOf(r)[i] == q;
    ListSectionsFaithful(all, selected, collate, i);
    FilterMultiplicity(all, CategoryIs(q), all[j]);
    assert all[j] in multiset(r[i].items);
  }
}

=== FILE: seqs.dfy ===
/**
  Sequence operations the views build their lists with: `Array.prototype.filter`,
  a stable sort by a lexicographically compared key (the shape of both the
  default `sort` and a `localeCompare` comparator), and the first-occurrence
  de-duplication of `Array.from(new Set(xs))`.
*/
module Seqs {
  import opened JsStrings

  /** `xs.filter(p)`: the elements satisfying `p`, in their original order. */
  function Filter<T(!new)>(xs: seq<T>, p: T -> bool): (r: seq<T>)
    ensures |r| <= |xs|
    ensures forall i :: 0 <= i < |r| ==> r[i] in xs && p(r[i])
  {
    if |xs| == 0 then []
    else
      var rest := Filter(xs[1..], p);
      if p(xs[0]) then [xs[0]] + rest else rest
  }

  /** The filter keeps every matching element as often as it occurs, and
      nothing else. */
  lemma {:induction false} FilterMultiplicity<T(!new)>(xs: seq<T>, p: T -> bool, x: T)
    ensures multiset(Filter(xs, p))[x] == if p(x) then multiset(xs)[x] else 0
  {
    if |xs| > 0 {
      FilterMultiplicity(xs[1..], p, x);
      assert xs == [xs[0]] + xs[1..];
    }
  }

  lemma {:induction false} FilterNone<T(!new)>(xs: seq<T>, p: T -> bool)
    requires forall x :: !p(x)
    ensures Filter(xs, p) == []
  {
    if |xs| > 0 {
      FilterNone(xs[1..], p);
    }
  }

  /** Filtering distributes over concatenation. */
  lemma {:induction false} FilterAppend<T(!new)>(xs: seq<T>, ys: seq<T>, p: T -> bool)
    ensures Filter(xs + ys, p) == Filter(xs, p) + Filter(ys, p)
  {
    if |xs| == 0 {
      assert xs + ys == ys;
    } else {
      FilterAppend(xs[1..], ys, p);
      assert (xs + ys)[1..] == xs[1..] + ys;
    }
  }

  /** A filter every element passes keeps the whole sequence. */
  lemma {:induction false} FilterKeepsAll<T(!new)>(xs: seq<T>, p: T -> bool)
    requires forall i :: 0 <= i < |xs| ==> p(xs[i])
    ensures Filter(xs, p) == xs
  {
    if |xs| > 0 {
      assert forall i :: 0 <= i < |xs[1..]| ==> xs[1..][i] == xs[i + 1];
      FilterKeepsAll(xs[1..], p);
      assert xs == [xs[0]] + xs[1..];
    }
  }

  /** A filter no element passes keeps nothing. */
  lemma {:induction false} FilterDropsAll<T(!new)>(xs: seq<T>, p: T -> bool)
    requires forall i :: 0 <= i < |xs| ==> !p(xs[i])
    ensures Filter(xs, p) == []
  {
    if |xs| > 0 {
      assert forall i :: 0 <= i < |xs[1..]| ==> xs[1..][i] == xs[i + 1];
      FilterDropsAll(xs[1..], p);
    }
  }

  /** The filter is empty exactly when no element satisfies `p`. */
  lemma FilterEmptyIff<T(!new)>(xs: seq<T>, p: T -> bool)
    ensures |Filter(xs, p)| == 0 <==> forall i :: 0 <= i < |xs| ==> !p(xs[i])
  {
    forall i | 0 <= i < |xs| && p(xs[i]) ensures |Filter(xs, p)| > 0 {
      FilterMultiplicity(xs, p, xs[i]);
      assert xs[i] in multiset(xs);
    }
  }

  /** Filtering by two disjoint predicates and pooling the results gives
      the filter by their disjunction, up to order. */
  lemma FilterDisjointUnion<T(!new)>(xs: seq<T>, p: T -> bool, q: T -> bool, pq: T -> bool)
    requires forall x :: pq(x) == (p(x) || q(x))
    requires forall x :: !(p(x) && q(x))
    ensures multiset(Filter(xs, p)) + multiset(Filter(xs, q)) == multiset(Filter(xs, pq))
  {
    var a, b, c := Filter(xs, p), Filter(xs, q), Filter(xs, pq);
    forall x ensures (multiset(a) + multiset(b))[x] == multiset(c)[x] {
      FilterMultiplicity(xs, p, x);
      FilterMultiplicity(xs, q, x);
      FilterMultiplicity(xs, pq, x);
    }
  }

  /** The number of positions holding an element that satisfies `p`. */
  function CountWhere<T>(xs: seq<T>, p: T -> bool): nat
  {
    |set i | 0 <= i < |xs| && p(xs[i])|
  }

  /** The filter keeps exactly as many elements as there are matching positions. */
  lemma {:induction false} FilterLengthIsCount<T(!new)>(xs: seq<T>, p: T -> bool)
    ensures |Filter(xs, p)| == CountWhere(xs, p)
    decreases |xs|
  {
    if |xs| > 0 {
      var ys, z := xs[..|xs| - 1], xs[|xs| - 1];
      assert xs == ys + [z];
      FilterLengthIsCount(ys, p);
      FilterSnoc(ys, z, p);
      var before := set i | 0 <= i < |ys| && p(ys[i]);
      var after := set i | 0 <= i < |xs| && p(xs[i]);
      if p(z) {
        assert after == before + {|ys|};
      } else {
        assert after == before;
      }
    }
  }

  /** Filtering distributes over appending one element. */
  lemma {:induction false} FilterSnoc<T(!new)>(xs: seq<T>, z: T, p: T -> bool)
    ensures Filter(xs + [z], p) == Filter(xs, p) + (if p(z) then [z] else [])
  {
    if |xs| == 0 {
      assert xs + [z] == [z];
      assert [z][1..] == [];
    } else {
      FilterSnoc(xs[1..], z, p);
      assert (xs + [z])[1..] == xs[1..] + [z];
    }
  }

  /** Non-decreasing by key, between every pair of positions. */
  predicate SortedBy<T>(xs: seq<T>, key: T -> seq<int>)
  {
    forall i, j :: 0 <= i < j < |xs| ==> LexLe(key(xs[i]), key(xs[j]))
  }

  /** Insert `x` before the first element whose key is not smaller. */
  function InsertBy<T>(x: T, xs: seq<T>, key: T -> seq<int>): (r: seq<T>)
    requires SortedBy(xs, key)
    ensures multiset(r) == multiset(xs) + multiset{x}
    ensures SortedBy(r, key)
  {
    if |xs| == 0 then [x]
    else if LexLe(key(x), key(xs[0])) then
      forall j | 0 <= j < |xs| ensures LexLe(key(x), key(xs[j])) {
        if j > 0 { LexLeTransitive(key(x), key(xs[0]), key(xs[j])); }
      }
      [x] + xs
    else
      LexLeTotal(key(x), key(xs[0]));
      var rest := InsertBy(x, xs[1..], key);
      assert xs == [xs[0]] + xs[1..];
      forall y | y in multiset(rest) ensures LexLe(key(xs[0]), key(y)) {
        if y != x {
          assert y in multiset(xs[1..]);
          var k :| 0 <= k < |xs[1..]| && xs[1..][k] == y;
          assert xs[k + 1] == y;
        }
      }
      forall j | 0 <= j < |rest| ensures LexLe(key(xs[0]), key(rest[j])) {
        assert rest[j] in multiset(rest);
      }
      [xs[0]] + rest
  }

  /** Stable insertion sort by key: `xs.sort((a, b) => compare(key(a), key(b)))`. */
  function SortBy<T>(xs: seq<T>, key: T -> seq<int>): (r: seq<T>)
    ensures multiset(r) == multiset(xs)
    ensures SortedBy(r, key)
  {
    if |xs| == 0 then []
    else
      assert xs == [xs[0]] + xs[1..];
      InsertBy(xs[0], SortBy(xs[1..], key), key)
  }

  predicate Distinct<T(==)>(xs: seq<T>)
  {
    forall i, j :: 0 <= i < j < |xs| ==> xs[i] != xs[j]
  }

  /** `Array.from(new Set(xs))`: first occurrences, in order. */
  function Dedup<T(==,!new)>(xs: seq<T>): (r: seq<T>)
    ensures Distinct(r)
    ensures forall x :: x in r <==> x in xs
  {
    DedupFrom(xs, [])
  }

  function DedupFrom<T(==,!new)>(xs: seq<T>, seen: seq<T>): (r: seq<T>)
    requires Distinct(seen)
    ensures Distinct(r)
    ensures forall x :: x in r <==> x in seen || x in xs
    ensures |seen| <= |r| && r[..|seen|] == seen
  {
    if |xs| == 0 then seen
    else if xs[0] in seen then DedupFrom(xs[1..], seen)
    else DedupFrom(xs[1..], seen + [xs[0]])
  }

  /** A permutation of a duplicate-free sequence is duplicate-free. */
  lemma DistinctPermutation<T>(xs: seq<T>, ys: seq<T>)
    requires Distinct(xs) && multiset(xs) == multiset(ys)
    ensures Distinct(ys)
  {
    forall x ensures multiset(xs)[x] <= 1 {
      DistinctCount(xs, x);
    }
    forall i, j | 0 <= i < j < |ys| ensures ys[i] != ys[j] {
      if ys[i] == ys[j] {
        TwoPositionsCount(ys, i, j);
        assert false;
      }
    }
  }

  lemma {:induction false} DistinctCount<T>(xs: seq<T>, x: T)
    requires Distinct(xs)
    ensures multiset(xs)[x] <= 1
  {
    if |xs| > 0 {
      DistinctCount(xs[1..], x);
      assert xs == [xs[0]] + xs[1..];
      if xs[0] == x {
        assert x !in xs[1..];
      }
    }
  }

  lemma {:induction false} TwoPositionsCount<T>(ys: seq<T>, i: int, j: int)
    requires 0 <= i < j < |ys| && ys[i] == ys[j]
    ensures multiset(ys)[ys[i]] >= 2
  {
    var x := ys[i];
    assert ys == ys[..i] + [x] + ys[i + 1..j] + [x] + ys[j + 1..];
  }
}

=== FILE: technical_data.dfy ===
/**
  The briefing parser shared by the glossary and radar views
  (`parseTechnicalData`). A term's `details` text is cut at every heading
  marker `###` followed by whitespace; in each piece the first line is a
  title and the remaining lines a body, and the bodies under titles that
  mention "definition", "application" or "risks" fill the three sections
  of the briefing, a later piece overriding an earlier one.
*/
module TechnicalData {
  import opened JsStrings
  import opened Terms

  datatype Sections = Sections(definition: string, application: string, risks: string)

  const NoSections := Sections("", "", "")

  datatype SectionKey = Definition | Application | Risks

  /** The lower-case word a title must contain to fill the section. */
  function Keyword(k: SectionKey): (w: string)
    ensures |w| > 0
  {
    match k
    case Definition => "definition"
    case Application => "application"
    case Risks => "risks"
  }

  function Get(s: Sections, k: SectionKey): string
  {
    match k
    case Definition => s.definition
    case Application => s.application
    case Risks => s.risks
  }

  // ---------------------------------------------------------------------
  // `raw.split(/###\s+/)`

  /** The pattern `###\s+` matches at position `k` of `s`. */
  predicate MarkerAt(s: string, k: int)
  {
    0 <= k && k + 4 <= |s| && s[k..k + 3] == "###" && IsJsWhitespace(s[k + 3])
  }

  predicate NoMarker(s: string)
  {
    forall k :: 0 <= k < |s| ==> !MarkerAt(s, k)
  }

  /** Where the greedy `\s+` that starts at `j` ends. */
  function WhitespaceEnd(s: string, j: nat): (e: nat)
    requires j <= |s|
    ensures j <= e <= |s|
    ensures AllWhitespace(s[j..e])
    ensures e == |s| || !IsJsWhitespace(s[e])
    decreases |s| - j
  {
    if j < |s| && IsJsWhitespace(s[j]) then
      var e := WhitespaceEnd(s, j + 1);
      assert s[j..e] == [s[j]] + s[j + 1..e];
      e
    else
      j
  }

  /** The first position at or after `k` where the marker matches, or `|s|`. */
  function FirstMarker(s: string, k: nat): (m: nat)
    requires k <= |s|
    ensures k <= m <= |s|
    ensures m < |s| ==> MarkerAt(s, m)
    ensures forall j :: k <= j < m ==> !MarkerAt(s, j)
    decreases |s| - k
  {
    if k == |s| || MarkerAt(s, k) then k else FirstMarker(s, k + 1)
  }

  lemma FirstMarkerIs(s: string, m: nat)
    requires m < |s| && MarkerAt(s, m)
    requires forall j :: 0 <= j < m ==> !MarkerAt(s, j)
    ensures FirstMarker(s, 0) == m
  {
  }

  /** A marker inside a prefix is a marker of the whole string. */
  lemma MarkerInPrefix(s: string, m: nat, j: int)
    requires m <= |s|
    ensures MarkerAt(s[..m], j) ==> MarkerAt(s, j)
  {
    if MarkerAt(s[..m], j) {
      assert s[..m][j..j + 3] == s[j..j + 3];
    }
  }

  /** `s.split(/###\s+/)`. The split resumes matching where the previous
      match ended, and whether the pattern matches at a position depends
      only on the text from that position on, so the pieces after the
      first marker are the split of the remaining suffix. */
  function SplitSections(s: string): (parts: seq<string>)
    ensures |parts| >= 1
    ensures forall i :: 0 <= i < |parts| ==> NoMarker(parts[i])
    decreases |s|
  {
    var m := FirstMarker(s, 0);
    if m == |s| then
      [s]
    else
      var e := WhitespaceEnd(s, m + 4);
      var piece := s[..m];
      forall j | 0 <= j < |piece| ensures !MarkerAt(piece, j) {
        MarkerInPrefix(s, m, j);
      }
      [piece] + SplitSections(s[e..])
  }

  /** Pieces joined by the marker `"### "`: the inverse of the split. */
  function JoinSections(parts: seq<string>): string
    requires |parts| >= 1
  {
    if |parts| == 1 then parts[0] else parts[0] + "### " + JoinSections(parts[1..])
  }

  /** Pieces the split gives back unchanged once joined: none holds a
      marker, and none after the first starts with whitespace (the marker's
      `\s+` would swallow it). */
  predicate Splittable(parts: seq<string>)
  {
    && |parts| >= 1
    && (forall i :: 0 <= i < |parts| ==> NoMarker(parts[i]))
    && (forall i :: 1 <= i < |parts| && |parts[i]| > 0 ==> !IsJsWhitespace(parts[i][0]))
  }

  /** No marker of `x + "### " + y` starts inside a marker-free `x`: one
      that overlaps the joining `###` would need a `#` to be whitespace. */
  lemma MarkerBeforeJoin(x: string, y: string, j: int)
    ensures 0 <= j < |x| && NoMarker(x) ==> !MarkerAt(x + "### " + y, j)
  {
    var s := x + "### " + y;
    if 0 <= j < |x| && NoMarker(x) {
      if j + 3 < |x| {
        assert s[j..j + 3] == x[j..j + 3];
        assert s[j + 3] == x[j + 3];
        assert !MarkerAt(x, j);
      } else {
        assert s[j + 3] == '#';
      }
    }
  }

  /** The first marker of `x + "### " + y` is the joining one. */
  lemma FirstMarkerOfJoin(x: string, y: string)
    requires NoMarker(x)
    requires |y| == 0 || !IsJsWhitespace(y[0])
    ensures FirstMarker(x + "### " + y, 0) == |x|
    ensures WhitespaceEnd(x + "### " + y, |x| + 4) == |x| + 4
  {
    var s := x + "### " + y;
    assert s[|x|..|x| + 3] == "###";
    assert s[|x| + 3] == ' ';
    forall j | 0 <= j < |x| ensures !MarkerAt(s, j) {
      MarkerBeforeJoin(x, y, j);
    }
    FirstMarkerIs(s, |x|);
    if |y| > 0 {
      assert s[|x| + 4] == y[0];
    }
  }

  /** The first character of a join. */
  lemma JoinSectionsHead(parts: seq<string>)
    requires |parts| >= 1
    ensures |parts[0]| > 0 ==> |JoinSections(parts)| > 0 && JoinSections(parts)[0] == parts[0][0]
    ensures |parts[0]| == 0 && |parts| > 1 ==> |JoinSections(parts)| > 0 && JoinSections(parts)[0] == '#'
    ensures |parts[0]| == 0 && |parts| == 1 ==> JoinSections(parts) == ""
  {
  }

  /** Splitting `x + "### " + y` splits off `x` and carries on with `y`. */
  lemma SplitJoinStep(x: string, y: string)
    requires NoMarker(x)
    requires |y| == 0 || !IsJsWhitespace(y[0])
    ensures SplitSections(x + "### " + y) == [x] + SplitSections(y)
  {
    var s := x + "### " + y;
    FirstMarkerOfJoin(x, y);
    assert s[..|x|] == x;
    assert s[|x| + 4..] == y;
  }

  /** The pieces after the first are splittable again, and the first one
      joins onto their join as a marker-free text before a non-blank one. */
  lemma SplittableTail(parts: seq<string>)
    requires Splittable(parts) && |parts| > 1
    ensures Splittable(parts[1..])
    ensures NoMarker(parts[0])
    ensures var rest := JoinSections(parts[1..]); |rest| == 0 || !IsJsWhitespace(rest[0])
  {
    assert NoMarker(parts[0]);
    JoinSectionsHead(parts[1..]);
    if |parts[1]| > 0 {
      assert !IsJsWhitespace(parts[1][0]);
    }
    forall i | 0 <= i < |parts[1..]| ensures NoMarker(parts[1..][i]) {
      assert parts[1..][i] == parts[i + 1];
    }
    forall i | 1 <= i < |parts[1..]| && |parts[1..][i]| > 0 ensures !IsJsWhitespace(parts[1..][i][0]) {
      assert parts[1..][i] == parts[i + 1];
    }
  }

  /** Splitting a join gives back the pieces. */
  lemma {:induction false} SplitJoinSections(parts: seq<string>)
    requires Splittable(parts)
    ensures SplitSections(JoinSections(parts)) == parts
  {
    if |parts| == 1 {
      assert NoMarker(parts[0]);
      assert FirstMarker(parts[0], 0) == |parts[0]|;
    } else {
      SplittableTail(parts);
      SplitJoinStep(parts[0], JoinSections(parts[1..]));
      SplitJoinSections(parts[1..]);
      assert parts == [parts[0]] + parts[1..];
    }
  }

  // ---------------------------------------------------------------------
  // Title, body and the section table

  /** A piece of the text read as a heading: `title` is
      `lines[0].toLowerCase().trim()` and `body` is
      `lines.slice(1).join('\n').trim()`, for `lines = part.trim().split('\n')`. */
  datatype Entry = Entry(title: string, body: string)

  function EntryOf(part: string): (e: Entry)
    ensures IsTrimmed(e.title) && IsTrimmed(e.body)
  {
    var lines := SplitOn(Trim(part), '\n');
    Entry(Trim(ToLower(lines[0])), Trim(Join(lines[1..], '\n')))
  }

  function Entries(parts: seq<string>): (es: seq<Entry>)
    ensures |es| == |parts|
    ensures forall i :: 0 <= i < |parts| ==> es[i] == EntryOf(parts[i])
  {
    seq(|parts|, i requires 0 <= i < |parts| => EntryOf(parts[i]))
  }

  /** The entry's title mentions the section's keyword. */
  predicate Names(e: Entry, k: SectionKey)
  {
    Includes(e.title, Keyword(k))
  }

  /** One `parts.forEach` step: the three independent `if`s, each of which
      overwrites its own section only. */
  function ApplyEntry(acc: Sections, e: Entry): (r: Sections)
    ensures Get(r, Definition) == if Names(e, Definition) then e.body else Get(acc, Definition)
    ensures Get(r, Application) == if Names(e, Application) then e.body else Get(acc, Application)
    ensures Get(r, Risks) == if Names(e, Risks) then e.body else Get(acc, Risks)
  {
    Sections(
      if Includes(e.title, "definition") then e.body else acc.definition,
      if Includes(e.title, "application") then e.body else acc.application,
      if Includes(e.title, "risks") then e.body else acc.risks)
  }

  lemma ApplyEntryGet(acc: Sections, e: Entry, k: SectionKey)
    ensures Get(ApplyEntry(acc, e), k) == if Names(e, k) then e.body else Get(acc, k)
  {
  }

  /** The `forEach` over all entries, from the empty table. */
  function ApplyEntries(es: seq<Entry>): Sections
  {
    if |es| == 0 then NoSections
    else ApplyEntry(ApplyEntries(es[..|es| - 1]), es[|es| - 1])
  }

  /** `parseTechnicalData(raw)`: an absent or empty text gives three empty
      sections. */
  function ParseTechnicalData(raw: Option<string>): (r: Sections)
    ensures !Truthy(raw) ==> r == NoSections
  {
    if !Truthy(raw) then NoSections else ApplyEntries(Entries(SplitSections(raw.value)))
  }

  /** A section holds the body of the last entry whose title names it. */
  lemma {:induction false} LastNamingEntryWins(es: seq<Entry>, k: SectionKey, j: nat)
    requires j < |es| && Names(es[j], k)
    requires forall i :: j < i < |es| ==> !Names(es[i], k)
    ensures Get(ApplyEntries(es), k) == es[j].body
  {
    var init, last := es[..|es| - 1], es[|es| - 1];
    ApplyEntryGet(ApplyEntries(init), last, k);
    if j < |es| - 1 {
      LaterEntriesOfInit(es, init, k, j);
      LastNamingEntryWins(init, k, j);
    }
  }

  /** Dropping the last entry keeps entry `j` and the entries after it. */
  lemma LaterEntriesOfInit(es: seq<Entry>, init: seq<Entry>, k: SectionKey, j: nat)
    requires j < |es| - 1 && init == es[..|es| - 1]
    requires forall i :: j < i < |es| ==> !Names(es[i], k)
    ensures init[j] == es[j]
    ensures forall i :: j < i < |init| ==> !Names(init[i], k)
  {
  }

  /** A section no title names stays empty. */
  lemma {:induction false} UnnamedSectionStaysEmpty(es: seq<Entry>, k: SectionKey)
    requires forall i :: 0 <= i < |es| ==> !Names(es[i], k)
    ensures Get(ApplyEntries(es), k) == ""
  {
    if |es| > 0 {
      var init := es[..|es| - 1];
      ApplyEntryGet(ApplyEntries(init), es[|es| - 1], k);
      assert forall i :: 0 <= i < |init| ==> init[i] == es[i];
      UnnamedSectionStaysEmpty(init, k);
    }
  }

  // ---------------------------------------------------------------------
  // The briefing layout of the bundled data, and its round trip

  /** The layout every bundled term's `details` follows:
      "### Definition\n…\n\n### Application\n…\n\n### Risks\n…". */
  function Briefing(s: Sections): string
  {
    "### " + ("Definition" + "\n" + s.definition + "\n\n")
    + "### " + ("Application" + "\n" + s.application + "\n\n")
    + "### " + ("Risks" + "\n" + s.risks)
  }

  /** A section text that survives the round trip: no surrounding
      whitespace (the parser trims) and no `###`. */
  predicate Writable(body: string)
  {
    IsTrimmed(body) && !Includes(body, "###")
  }

  lemma MarkerMeansIncludes(s: string, k: int)
    ensures MarkerAt(s, k) ==> Includes(s, "###")
  {
    if MarkerAt(s, k) {
      IncludesAt(s, k, "###");
    }
  }

  /** Text free of `###` framed by `#`-free text holds no marker. */
  lemma NoMarkerFramed(h: string, x: string, w: string)
    requires '#' !in h && '#' !in w && !Includes(x, "###")
    ensures NoMarker(h + x + w)
  {
    var s := h + x + w;
    assert s == h + (x + w);
    IncludesDropPrefix(h, x + w, "###");
    IncludesDropSuffix(x, w, "###");
    forall k | 0 <= k < |s| ensures !MarkerAt(s, k) {
      MarkerMeansIncludes(s, k);
    }
  }

  /** The trim of a piece written as heading, newline, body and trailing
      whitespace. */
  lemma TrimHeaded(h: string, x: string, w: string)
    requires |h| > 0 && IsTrimmed(h)
    requires IsTrimmed(x) && AllWhitespace(w)
    ensures Trim(h + "\n" + x + w) == if |x| == 0 then h else h + "\n" + x
  {
    TrimAppendWhitespace(h + "\n" + x, w);
    if |x| == 0 {
      TrimNewlineAfter(h);
    } else {
      TrimmedAroundNewline(h, x);
      TrimOfTrimmed(h + "\n" + x);
    }
  }

  lemma TrimNewlineAfter(h: string)
    requires IsTrimmed(h)
    ensures Trim(h + "\n" + "") == h
  {
    assert h + "\n" + "" == h + "\n";
    assert AllWhitespace("\n");
    TrimAppendWhitespace(h, "\n");
    TrimOfTrimmed(h);
  }

  lemma TrimmedAroundNewline(h: string, x: string)
    requires |h| > 0 && IsTrimmed(h) && |x| > 0 && IsTrimmed(x)
    ensures IsTrimmed(h + "\n" + x)
  {
    var t := h + "\n" + x;
    assert t[0] == h[0] && t[|t| - 1] == x[|x| - 1];
  }

  /** The entry of a piece written as heading, newline, body and trailing
      whitespace. */
  lemma HeadedEntry(h: string, x: string, w: string)
    requires |h| > 0 && IsTrimmed(h) && '\n' !in h
    requires IsTrimmed(x) && AllWhitespace(w)
    ensures EntryOf(h + "\n" + x + w) == Entry(ToLower(h), x)
  {
    TrimHeaded(h, x, w);
    if |x| == 0 {
      EntryOfHeadingOnly(h);
    } else {
      EntryOfHeadingAndBody(h, x);
    }
    ToLowerTrimmed(h);
    TrimOfTrimmed(ToLower(h));
  }

  /** The lines of a trimmed heading with no body. */
  lemma EntryOfHeadingOnly(h: string)
    requires '\n' !in h
    ensures var lines := SplitOn(h, '\n'); lines[0] == h && Trim(Join(lines[1..], '\n')) == ""
  {
    SplitWithoutSeparator(h, '\n');
    assert SplitOn(h, '\n')[1..] == [];
  }

  /** The lines of a heading followed by a trimmed body. */
  lemma EntryOfHeadingAndBody(h: string, x: string)
    requires '\n' !in h && IsTrimmed(x)
    ensures var lines := SplitOn(h + "\n" + x, '\n'); lines[0] == h && Trim(Join(lines[1..], '\n')) == x
  {
    SplitAfterHead(h, x, '\n');
    assert h + "\n" + x == h + ['\n'] + x;
    var lines := SplitOn(h + "\n" + x, '\n');
    assert lines[1..] == SplitOn(x, '\n');
    JoinSplit(x, '\n');
    TrimOfTrimmed(x);
  }

  /** A piece is read through its trim only. */
  lemma EntryOfTrim(part: string)
    ensures EntryOf(Trim(part)) == EntryOf(part)
  {
    TrimOfTrimmed(Trim(part));
  }

  /** A one-line piece: the title is the line trimmed and lower-cased, and
      the body is empty. */
  lemma EntryOfHeadingLine(h: string)
    requires '\n' !in h
    ensures EntryOf(h) == Entry(ToLower(Trim(h)), "")
  {
    var i, j := TrimSpan(h);
    var t := Trim(h);
    forall k | 0 <= k < |t| ensures t[k] != '\n' {
      assert t[k] == h[i + k];
    }
    TrimOfTrimmed(t);
    EntryOfHeadingOnly(t);
    ToLowerTrimmed(t);
    TrimOfTrimmed(ToLower(t));
  }

  /** A heading line with visible text, a newline and any text after it:
      the title is the heading trimmed and lower-cased, and the body is the
      rest trimmed, whatever whitespace surrounds either. */
  lemma EntryOfHeadedPiece(h: string, x: string)
    requires '\n' !in h && !AllWhitespace(h)
    ensures EntryOf(h + "\n" + x) == Entry(ToLower(Trim(h)), Trim(x))
  {
    var i, j := TrimSpan(h);
    var k, l := TrimSpan(x);
    if k == l {
      HeadingWithBlankRest(h, x, i, j);
    } else {
      HeadingWithBody(h, x, i, j, k, l);
    }
  }

  lemma HeadingWithBlankRest(h: string, x: string, i: nat, j: nat)
    requires '\n' !in h && AllWhitespace(x)
    requires i < j <= |h| && Trim(h) == h[i..j]
    requires AllWhitespace(h[..i]) && AllWhitespace(h[j..])
    ensures EntryOf(h + "\n" + x) == Entry(ToLower(Trim(h)), Trim(x))
  {
    var part := h + "\n" + x;
    TrimBlankRest(h, x, i, j);
    assert Trim(part) == Trim(h);
    EntryOfTrim(part);
    EntryOfTrim(h);
    EntryOfHeadingLine(h);
    var k, l := TrimSpan(x);
  }

  /** Whitespace after the heading's last visible character is cut. */
  lemma TrimBlankRest(h: string, x: string, i: nat, j: nat)
    requires AllWhitespace(x)
    requires i < j <= |h| && IsTrimmed(h[i..j])
    requires AllWhitespace(h[..i]) && AllWhitespace(h[j..])
    ensures Trim(h + "\n" + x) == h[i..j]
  {
    var a, m, w := h[..i], h[i..j], h[j..];
    assert h == a + m + w;
    TrimBlankTail(a, m, w, x);
  }

  lemma TrimBlankTail(a: string, m: string, w: string, x: string)
    requires AllWhitespace(a) && AllWhitespace(w) && AllWhitespace(x)
    requires |m| > 0 && IsTrimmed(m)
    ensures Trim((a + m + w) + "\n" + x) == m
  {
    NewlineFramedWhitespace(w, x);
    assert (a + m + w) + "\n" + x == a + m + (w + "\n" + x);
    TrimUnique(a, m, w + "\n" + x);
  }

  lemma NewlineFramedWhitespace(w: string, x: string)
    requires AllWhitespace(w) && AllWhitespace(x)
    ensures AllWhitespace(w + "\n" + x)
  {
    assert AllWhitespace("\n");
    AllWhitespaceAppend(w, "\n");
    AllWhitespaceAppend(w + "\n", x);
  }

  lemma HeadingWithBody(h: string, x: string, i: nat, j: nat, k: nat, l: nat)
    requires '\n' !in h
    requires i < j <= |h| && IsTrimmed(h[i..j])
    requires AllWhitespace(h[..i]) && AllWhitespace(h[j..])
    requires k < l <= |x| && IsTrimmed(x[k..l])
    requires AllWhitespace(x[..k]) && AllWhitespace(x[l..])
    ensures EntryOf(h + "\n" + x) == Entry(ToLower(h[i..j]), x[k..l])
  {
    assert x[l - 1] == x[k..l][l - k - 1] && h[i] == h[i..j][0];
    var part, line, body := h + "\n" + x, h[i..], x[..l];
    HeadedPieceTrim(h, x, i, l);
    assert forall c :: c in line ==> c in h;
    EntryOfLines(part, line, body);
    TitleOfHeadingLine(h, i, j);
    BodyTrim(x, k, l);
  }

  /** The entry of a piece whose trim is a heading line and a body. */
  lemma EntryOfLines(part: string, line: string, body: string)
    requires '\n' !in line && Trim(part) == line + "\n" + body
    ensures EntryOf(part) == Entry(Trim(ToLower(line)), Trim(body))
  {
    LinesOfHeadedBody(line, body);
  }

  /** The lines of a heading line followed by a body. */
  lemma LinesOfHeadedBody(line: string, body: string)
    requires '\n' !in line
    ensures var lines := SplitOn(line + "\n" + body, '\n');
      lines[0] == line && Join(lines[1..], '\n') == body
  {
    assert line + "\n" + body == line + ['\n'] + body;
    SplitAfterHead(line, body, '\n');
    JoinSplit(body, '\n');
  }

  /** Cutting trailing whitespace before trimming changes nothing. */
  lemma BodyTrim(x: string, k: nat, l: nat)
    requires k < l <= |x| && IsTrimmed(x[k..l]) && AllWhitespace(x[..k])
    ensures Trim(x[..l]) == x[k..l]
  {
    var a, m := x[..k], x[k..l];
    assert x[..l] == a + m + "";
    TrimUnique(a, m, "");
  }

  /** The trim of a heading line and a body with visible text runs from the
      heading's first visible character to the body's last. */
  lemma HeadedPieceTrim(h: string, x: string, i: nat, l: nat)
    requires i < |h| && !IsJsWhitespace(h[i]) && AllWhitespace(h[..i])
    requires 0 < l <= |x| && !IsJsWhitespace(x[l - 1]) && AllWhitespace(x[l..])
    ensures Trim(h + "\n" + x) == h[i..] + "\n" + x[..l]
  {
    var a, line, body, w := h[..i], h[i..], x[..l], x[l..];
    assert line[0] == h[i];
    assert h == a + line && x == body + w;
    TrimFramedPiece(a, line, body, w);
  }

  lemma TrimFramedPiece(a: string, line: string, body: string, w: string)
    requires AllWhitespace(a) && AllWhitespace(w)
    requires |line| > 0 && !IsJsWhitespace(line[0])
    requires |body| > 0 && !IsJsWhitespace(body[|body| - 1])
    ensures Trim((a + line) + "\n" + (body + w)) == line + "\n" + body
  {
    VisibleEnds(line, body);
    assert (a + line) + "\n" + (body + w) == a + (line + "\n" + body) + w;
    TrimUnique(a, line + "\n" + body, w);
  }

  lemma VisibleEnds(line: string, body: string)
    requires |line| > 0 && !IsJsWhitespace(line[0])
    requires |body| > 0 && !IsJsWhitespace(body[|body| - 1])
    ensures IsTrimmed(line + "\n" + body)
  {
    var m := line + "\n" + body;
    assert m[0] == line[0] && m[|m| - 1] == body[|body| - 1];
  }

  /** The lower-cased rest of a heading line, trimmed, is the lower-cased
      trim of the line. */
  lemma TitleOfHeadingLine(h: string, i: nat, j: nat)
    requires i < j <= |h| && IsTrimmed(h[i..j]) && AllWhitespace(h[j..])
    ensures Trim(ToLower(h[i..])) == ToLower(h[i..j])
  {
    assert h[i..] == h[i..j] + h[j..];
    TrimLowerUnique(h[i..j], h[j..]);
  }

  lemma TrimLowerUnique(m: string, w: string)
    requires |m| > 0 && IsTrimmed(m) && AllWhitespace(w)
    ensures Trim(ToLower(m + w)) == ToLower(m)
  {
    ToLowerAppend(m, w);
    ToLowerTrimmed(m);
    ToLowerWhitespace(w);
    var lm, lw := ToLower(m), ToLower(w);
    assert ToLower(m + w) == "" + lm + lw;
    TrimUnique("", lm, lw);
  }

  /** Each keyword occurs in itself and in no other keyword. */
  lemma KeywordsDistinct(k: SectionKey, k': SectionKey)
    ensures Includes(Keyword(k), Keyword(k')) <==> k == k'
  {
    var w, w' := Keyword(k), Keyword(k');
    if k == k' {
      IncludesSelf(w);
    } else {
      assert w'[0] !in w;
      NotIncludesWithoutFirstChar(w, w');
    }
  }

  /** The pieces the split cuts the briefing layout into. */
  function BriefingParts(s: Sections): seq<string>
  {
    [ "",
      "Definition" + "\n" + s.definition + "\n\n",
      "Application" + "\n" + s.application + "\n\n",
      "Risks" + "\n" + s.risks ]
  }

  /** The join of four pieces, written out. */
  lemma JoinFour(p0: string, p1: string, p2: string, p3: string)
    ensures JoinSections([p0, p1, p2, p3]) == p0 + "### " + p1 + "### " + p2 + "### " + p3
  {
    var parts := [p0, p1, p2, p3];
    assert parts[1..] == [p1, p2, p3];
    assert parts[1..][1..] == [p2, p3];
    assert parts[1..][1..][1..] == [p3];
    assert JoinSections([p2, p3]) == p2 + "### " + p3;
    assert JoinSections([p1, p2, p3]) == p1 + "### " + (p2 + "### " + p3);
    assert JoinSections(parts) == p0 + "### " + (p1 + "### " + (p2 + "### " + p3));
  }

  lemma BriefingIsJoin(s: Sections)
    ensures JoinSections(BriefingParts(s)) == Briefing(s)
  {
    var parts := BriefingParts(s);
    JoinFour(parts[0], parts[1], parts[2], parts[3]);
    assert "" + "### " == "### ";
  }

  lemma BriefingPieces(s: Sections)
    requires Writable(s.definition) && Writable(s.application) && Writable(s.risks)
    ensures SplitSections(Briefing(s)) == BriefingParts(s)
  {
    var parts := BriefingParts(s);
    NoMarkerFramed("Definition" + "\n", s.definition, "\n\n");
    NoMarkerFramed("Application" + "\n", s.application, "\n\n");
    assert parts[3] == "Risks" + "\n" + s.risks + "";
    NoMarkerFramed("Risks" + "\n", s.risks, "");
    assert Splittable(parts);
    SplitJoinSections(parts);
    BriefingIsJoin(s);
  }

  /** The capitalised heading the layout writes for a section. */
  function Heading(k: SectionKey): string
  {
    match k
    case Definition => "Definition"
    case Application => "Application"
    case Risks => "Risks"
  }

  lemma LowerHeading(k: SectionKey)
    ensures ToLower(Heading(k)) == Keyword(k)
  {
    match k {
      case Definition => assert ToLower("Definition") == "definition";
      case Application => assert ToLower("Application") == "application";
      case Risks => assert ToLower("Risks") == "risks";
    }
  }

  lemma HeadingShape(k: SectionKey)
    ensures |Heading(k)| > 0 && IsTrimmed(Heading(k)) && '\n' !in Heading(k)
  {
  }

  /** The entry of one section of the layout. */
  lemma SectionEntry(k: SectionKey, body: string, w: string)
    requires Writable(body) && AllWhitespace(w)
    ensures EntryOf(Heading(k) + "\n" + body + w) == Entry(Keyword(k), body)
  {
    HeadingShape(k);
    HeadedEntry(Heading(k), body, w);
    LowerHeading(k);
  }

  /** Where the layout puts each section among its pieces. */
  function SectionIndex(k: SectionKey): nat
  {
    match k
    case Definition => 1
    case Application => 2
    case Risks => 3
  }

  /** The entry of each section's piece of the layout. */
  lemma BriefingPartEntry(s: Sections, k: SectionKey)
    requires Writable(Get(s, k))
    ensures EntryOf(BriefingParts(s)[SectionIndex(k)]) == Entry(Keyword(k), Get(s, k))
  {
    var w := if k == Risks then "" else "\n\n";
    assert AllWhitespace(w);
    assert BriefingParts(s)[SectionIndex(k)] == Heading(k) + "\n" + Get(s, k) + w by {
      match k {
        case Definition =>
        case Application =>
        case Risks => assert "Risks" + "\n" + s.risks + "" == "Risks" + "\n" + s.risks;
      }
    }
    SectionEntry(k, Get(s, k), w);
  }

  /** In four entries shaped like the layout's, each section is filled
      by the body of its own entry. */
  lemma ApplyBriefingEntry(es: seq<Entry>, s: Sections, k: SectionKey)
    requires |es| == 4
    requires forall k, k' :: Names(es[SectionIndex(k)], k') <==> k == k'
    requires forall k :: es[SectionIndex(k)].body == Get(s, k)
    ensures Get(ApplyEntries(es), k) == Get(s, k)
  {
    var j := SectionIndex(k);
    forall i | j < i < |es| ensures !Names(es[i], k) {
      var k' := if i == 2 then Application else Risks;
      assert SectionIndex(k') == i && k' != k;
    }
    LastNamingEntryWins(es, k, j);
  }

  /** Four entries shaped like the layout's fill the table with their bodies. */
  lemma ApplyBriefingEntries(es: seq<Entry>, s: Sections)
    requires |es| == 4
    requires forall k, k' :: Names(es[SectionIndex(k)], k') <==> k == k'
    requires forall k :: es[SectionIndex(k)].body == Get(s, k)
    ensures ApplyEntries(es) == s
  {
    ApplyBriefingEntry(es, s, Definition);
    ApplyBriefingEntry(es, s, Application);
    ApplyBriefingEntry(es, s, Risks);
  }

  /** Parsing the briefing layout gives back its three sections. */
  lemma ParseBriefing(s: Sections)
    requires Writable(s.definition) && Writable(s.application) && Writable(s.risks)
    ensures ParseTechnicalData(Some(Briefing(s))) == s
  {
    BriefingPieces(s);
    var es := Entries(BriefingParts(s));
    forall k ensures es[SectionIndex(k)] == Entry(Keyword(k), Get(s, k)) {
      BriefingPartEntry(s, k);
    }
    forall k, k' ensures Names(es[SectionIndex(k)], k') <==> k == k' {
      KeywordsDistinct(k, k');
    }
    ApplyBriefingEntries(es, s);
  }

  /** The definition a briefing shows: the parsed one, or the term's
      description when that is empty. */
  function ShownDefinition(t: Term): (d: string)
    ensures Get(ParseTechnicalData(t.details), Definition) != "" ==> d == Get(ParseTechnicalData(t.details), Definition)
    ensures Get(ParseTechnicalData(t.details), Definition) == "" ==> d == t.description
  {
    var parsed := ParseTechnicalData(t.details).definition;
    if parsed != "" then parsed else t.description
  }

  /** A term in the bundled layout shows its own definition, and a term
      without details falls back to its description. */
  lemma ShownDefinitionOfBriefing(t: Term, s: Sections)
    requires Writable(s.definition) && Writable(s.application) && Writable(s.risks)
    ensures t.details == Some(Briefing(s)) && s.definition != "" ==> ShownDefinition(t) == s.definition
    ensures t.details == Some(Briefing(s)) && s.definition == "" ==> ShownDefinition(t) == t.description
    ensures t.details.None? ==> ShownDefinition(t) == t.description
  {
    if t.details == Some(Briefing(s)) {
      ParseBriefing(s);
      assert ParseTechnicalData(t.details) == s;
    }
  }
}

=== FILE: technical_radar.dfy ===
/**
  The radar chart's layout: a stable seed per term id, grouping of terms by
  (quadrant, ring), a rows-by-columns grid inside each polar segment with
  clamped jitter, the zoom-to-quadrant view box and the blip activity test.

  Positions are kept in polar form, an angle in degrees and a radius in
  chart units; the conversion to x/y with cosine and sine is not modelled.
*/
module TechnicalRadar {
  import opened JsStrings
  import opened JsNumbers
  import opened Seqs
  import opened Terms

  const Size: int := 600
  const Center: int := Size / 2
  /** `center - 10`: the radius the ring factors scale. */
  const RingRadius: real := 290.0

  const Quadrants: seq<string> := ["Governance", "Platforms", "Techniques", "Tools"]
  const Rings: seq<string> := ["Adopt", "Trial", "Assess", "Experimental"]
  const RingRadiiFactors: seq<real> := [0.44, 0.64, 0.82, 0.98]

  /** The angular sector of each quadrant, in degrees, in `Quadrants` order.
      Angles grow clockwise on screen because the y axis points down. */
  const QuadrantAngles: seq<(int, int)> := [(0, 90), (90, 180), (180, 270), (270, 360)]

  // ---------------------------------------------------------------------
  // Stable seed

  /** One step of the id hash: `charCode + ((hash << 5) - hash)`. The shift
      wraps to 32 bits, but the subtraction and the addition are done on
      the unwrapped number, so the hash itself is not kept within 32 bits. */
  function HashStep(hash: int, unit: CodeUnit): int
  {
    unit + (ShiftLeft(hash, 5) - hash)
  }

  /** The hash after folding `HashStep` over the code units, left to right. */
  function HashUnits(units: seq<CodeUnit>): int
    decreases |units|
  {
    if |units| == 0 then 0
    else HashStep(HashUnits(units[..|units| - 1]), units[|units| - 1])
  }

  /** `getStableSeed(id)`: the absolute value of the hash of the id's UTF-16 code units. */
  function StableSeed(id: string): (seed: nat)
    ensures id == "" ==> seed == 0
  {
    Abs(HashUnits(CodeUnits(id)))
  }

  /** The textbook polynomial string hash `sum units[i] * 31^(n-1-i)`, unbounded. */
  function PolyHash(units: seq<CodeUnit>): int
    decreases |units|
  {
    if |units| == 0 then 0
    else 31 * PolyHash(units[..|units| - 1]) + units[|units| - 1]
  }

  /** Modulo 2^32 the seed hash is the polynomial hash with multiplier 31. */
  lemma {:induction false} HashIsPolyHashModulo32Bits(units: seq<CodeUnit>)
    ensures (HashUnits(units) - PolyHash(units)) % TwoTo32 == 0
    decreases |units|
  {
    if |units| > 0 {
      var prefix := units[..|units| - 1];
      HashIsPolyHashModulo32Bits(prefix);
      StepIsPolyStepModulo32Bits(HashUnits(prefix), PolyHash(prefix), units[|units| - 1]);
    }
  }

  lemma StepIsPolyStepModulo32Bits(h: int, p: int, c: CodeUnit)
    requires (h - p) % TwoTo32 == 0
    ensures (HashStep(h, c) - (31 * p + c)) % TwoTo32 == 0
  {
    var t := ToInt32(h);
    var s := ToInt32(t * 32);
    assert Pow2(5) == 32;
    assert HashStep(h, c) - (31 * p + c) == 31 * (h - p) - 32 * (h - t) - (t * 32 - s);
    CombinationOf32BitMultiples(h - p, h - t, t * 32 - s);
  }

  /** Any integer combination `31a - 32b - d` of multiples of 2^32 is one. */
  lemma CombinationOf32BitMultiples(a: int, b: int, d: int)
    requires a % TwoTo32 == 0 && b % TwoTo32 == 0 && d % TwoTo32 == 0
    ensures (31 * a - 32 * b - d) % TwoTo32 == 0
  {
    var qa, qb, qd := a / TwoTo32, b / TwoTo32, d / TwoTo32;
    assert a == TwoTo32 * qa && b == TwoTo32 * qb && d == TwoTo32 * qd;
    assert 31 * a - 32 * b - d == TwoTo32 * (31 * qa - 32 * qb - qd);
  }

  /** Each step moves the hash by less than 2^31 + 2^16, so the hash stays an
      exactly representable double (below 2^53) for ids of up to 2^21 code units. */
  lemma {:induction false} HashBound(units: seq<CodeUnit>)
    ensures Abs(HashUnits(units)) <= |units| * (TwoTo31 + 0xFFFF)
    ensures |units| <= 0x20_0000 ==> Abs(HashUnits(units)) < 0x20_0000_0000_0000
    decreases |units|
  {
    if |units| > 0 {
      HashBound(units[..|units| - 1]);
    }
  }

  lemma SeedsOfShortIds()
    ensures StableSeed("a") == 97
    ensures StableSeed("ab") == 3105
  {
    assert CodeUnits("a") == [97];
    assert CodeUnits("ab") == [97, 98];
    assert [97, 98][..1] == [97];
    assert Pow2(5) == 32;
    assert HashUnits([97]) == HashStep(0, 97) == 97;
    assert ShiftLeft(97, 5) == 3104;
    assert HashUnits([97, 98]) == HashStep(97, 98) == 3105;
  }

  /** `((seed % 100) - 50) / 400`. */
  function JitterAngle(seed: nat): (j: real)
    ensures -0.125 <= j <= 0.1225
  {
    (JsRem(seed, 100) - 50) as real / 400.0
  }

  /** `(((seed >> 4) % 100) - 50) / 400`. `>>` reads the seed as a 32-bit
      number, which is negative when `seed % 2^32` is 2^31 or more, and `%`
      keeps the dividend's sign, so such seeds can push this jitter further
      below zero than the angular one. */
  function JitterRadial(seed: nat): (j: real)
    ensures -0.3725 <= j <= 0.1225
    ensures seed % 0x1_0000_0000 < TwoTo31 ==> -0.125 <= j
  {
    (JsRem(ShiftRight(seed, 4), 100) - 50) as real / 400.0
  }

  // ---------------------------------------------------------------------
  // Grid inside a segment

  /** The number of grid rows for a group of `n` items: one, raised to two,
      three and four as the group outgrows 3, 7 and 12 items. */
  function RowCount(n: nat): (rows: int)
    ensures 1 <= rows <= 4
    ensures n <= 3 ==> rows == 1
    ensures 4 <= n <= 7 ==> rows == 2
    ensures 8 <= n <= 12 ==> rows == 3
    ensures 13 <= n ==> rows == 4
  {
    var rows := 1;
    var rows := if n > 3 then 2 else rows;
    var rows := if n > 7 then 3 else rows;
    var rows := if n > 12 then 4 else rows;
    rows
  }

  /** `Math.ceil(n / rows)`. */
  function ColCount(n: nat, rows: int): int
    requires 1 <= rows
  {
    Ceil(n as real / rows as real)
  }

  /** The grid is just large enough: it has a cell for every item, and one
      column fewer would not do. */
  lemma GridFits(n: nat)
    requires n > 0
    ensures var rows, cols := RowCount(n), ColCount(n, RowCount(n));
      && cols >= 1
      && rows * cols >= n
      && rows * (cols - 1) < n
  {
    var rows := RowCount(n);
    var cols := ColCount(n, rows);
    var x := n as real / rows as real;
    assert x <= cols as real < x + 1.0;
    if rows == 1 {
    } else if rows == 2 {
    } else if rows == 3 {
    } else {
    }
  }

  /** Item `i` sits in row `floor(i / cols)` and column `i % cols`. */
  function GridCell(i: nat, cols: int): (cell: (nat, nat))
    requires cols >= 1
    ensures cell.1 < cols
  {
    (i / cols, i % cols)
  }

  /** Every item of a group gets a cell of the grid, and no two items share one. */
  lemma GridCellsDistinct(n: nat, i: nat, j: nat)
    requires 0 < n && i < n && j < n
    ensures var rows, cols := RowCount(n), ColCount(n, RowCount(n));
      && GridCell(i, cols).0 < rows
      && GridCell(i, cols).1 < cols
      && (i != j ==> GridCell(i, cols) != GridCell(j, cols))
  {
    var rows, cols := RowCount(n), ColCount(n, RowCount(n));
    GridFits(n);
    CellRowBound(i, cols, rows, n);
    CellInjective(i, j, cols);
  }

  lemma CellRowBound(i: nat, cols: int, rows: int, n: nat)
    requires cols >= 1 && i < n <= rows * cols
    ensures i / cols < rows
  {
    var row := i / cols;
    assert i == cols * row + i % cols;
    MulMonotone(cols, rows, row);
  }

  lemma CellInjective(i: nat, j: nat, cols: int)
    requires cols >= 1
    ensures i != j ==> GridCell(i, cols) != GridCell(j, cols)
  {
    assert i == cols * (i / cols) + i % cols;
    assert j == cols * (j / cols) + j % cols;
  }

  lemma MulMonotone(a: int, b: int, c: int)
    ensures a >= 1 && b <= c ==> a * b <= a * c
  {
    assert a * c - a * b == a * (c - b);
  }

  /** The alternate-row offset `(row % 2) * 0.3`. */
  function Stagger(row: nat): real
  {
    (row % 2) as real * 0.3
  }

  /** `(col + 0.5 + stagger) / (cols + (rows > 1 ? 0.3 : 0))`. */
  function AngleNorm(row: nat, col: nat, rows: int, cols: int): real
    requires cols >= 1
  {
    (col as real + 0.5 + Stagger(row)) / (cols as real + (if rows > 1 then 0.3 else 0.0))
  }

  /** `(row + 0.5) / rows`. */
  function RadialNorm(row: nat, rows: int): real
    requires rows >= 1
  {
    (row as real + 0.5) / rows as real
  }

  /** Before jitter, every grid cell maps strictly inside the unit square. */
  lemma GridNormsInsideUnit(n: nat, i: nat)
    requires 0 < n && i < n
    ensures var rows, cols := RowCount(n), ColCount(n, RowCount(n));
      var (row, col) := GridCell(i, cols);
      && 0.0 < AngleNorm(row, col, rows, cols) < 1.0
      && 0.0 < RadialNorm(row, rows) < 1.0
  {
    var rows, cols := RowCount(n), ColCount(n, RowCount(n));
    GridCellsDistinct(n, i, i);
    var (row, col) := GridCell(i, cols);
    var num := col as real + 0.5 + Stagger(row);
    var den := cols as real + (if rows > 1 then 0.3 else 0.0);
    if rows == 1 {
      assert row == 0;
    }
    assert 0.0 < num < den;
    DivBelowOne(num, den);
    DivBelowOne(row as real + 0.5, rows as real);
  }

  lemma ScaleAtLeastOne(d: real, b: real)
    ensures d >= 1.0 && b > 0.0 ==> d * b >= b
  {
    if d >= 1.0 && b > 0.0 {
      assert d * b - b == (d - 1.0) * b;
    }
  }

  lemma ScaleNonPositive(d: real, b: real)
    ensures d <= 0.0 && b > 0.0 ==> d * b <= 0.0
  {
  }

  lemma DivBelowOne(a: real, b: real)
    requires 0.0 < a < b
    ensures 0.0 < a / b < 1.0
  {
    var d := a / b;
    assert d * b == a;
    ScaleAtLeastOne(d, b);
    ScaleNonPositive(d, b);
    assert !(d >= 1.0);
    assert !(d <= 0.0);
  }

  // ---------------------------------------------------------------------
  // Polar position inside a segment

  predicate ValidQuadrant(q: int) { 0 <= q < 4 }
  predicate ValidRing(r: int) { 0 <= r < 4 }

  /** The angle a blip may take in quadrant `q`: strictly inside its
      90-degree sector less a 14-degree margin on either side. */
  predicate InSector(q: int, angleDeg: real)
    requires ValidQuadrant(q)
  {
    (QuadrantAngles[q].0 + 14) as real < angleDeg < (QuadrantAngles[q].1 - 14) as real
  }

  /** `startAngle + clamp(0.05, 0.95, norm + jitter) * angleRange`: the
      clamp keeps the angle 5% of the 62-degree range (3.1 degrees) away
      from either end of the shrunk sector. */
  function AngleDeg(q: int, norm: real, jitter: real): (angle: real)
    requires ValidQuadrant(q)
    ensures InSector(q, angle)
    ensures (QuadrantAngles[q].0 + 14) as real + 3.1 <= angle <= (QuadrantAngles[q].1 - 14) as real - 3.1
    ensures (QuadrantAngles[q].0 as real) < angle < (QuadrantAngles[q].1 as real)
  {
    var startAngle := (QuadrantAngles[q].0 + 14) as real;
    var endAngle := (QuadrantAngles[q].1 - 14) as real;
    var angleRange := endAngle - startAngle;
    assert angleRange == 62.0;
    startAngle + Clamp(0.05, 0.95, norm + jitter) * angleRange
  }

  /** Inner edge of ring `r`'s band: 50 for the innermost ring, otherwise
      15 units outside the previous ring's circle. */
  function RStart(r: int): real
    requires ValidRing(r)
  {
    if r == 0 then 50.0 else RingRadiiFactors[r - 1] * RingRadius + 15.0
  }

  /** Outer edge of ring `r`'s band: 15 units inside the ring's circle. */
  function REnd(r: int): real
    requires ValidRing(r)
  {
    RingRadiiFactors[r] * RingRadius - 15.0
  }

  predicate InBand(r: int, radius: real)
    requires ValidRing(r)
  {
    RStart(r) <= radius <= REnd(r)
  }

  /** Every band is non-empty and lies strictly between the circle drawn for
      the previous ring (or the centre) and the circle drawn for its own
      ring, so the bands are disjoint and ordered from Adopt outwards. */
  lemma RingBandsOrdered(r: int)
    requires ValidRing(r)
    ensures 0.0 < RStart(r) < REnd(r) < RingRadiiFactors[r] * RingRadius
    ensures r > 0 ==> RingRadiiFactors[r - 1] * RingRadius < RStart(r)
    ensures r < 3 ==> REnd(r) < RStart(r + 1)
  {
  }

  /** Bands of different rings never share a radius. */
  lemma RingBandsDisjoint(r1: int, r2: int, radius: real)
    requires ValidRing(r1) && ValidRing(r2) && r1 < r2
    ensures !(InBand(r1, radius) && InBand(r2, radius))
  {
  }

  /** `rStart + clamp(0.1, 0.9, norm + jitter) * rRange`. */
  function Radius(r: int, norm: real, jitter: real): (radius: real)
    requires ValidRing(r)
    ensures InBand(r, radius)
  {
    var rStart := RStart(r);
    var rEnd := REnd(r);
    RingBandsOrdered(r);
    var c := Clamp(0.1, 0.9, norm + jitter);
    FractionOfRange(c, rEnd - rStart);
    rStart + c * (rEnd - rStart)
  }

  lemma FractionOfRange(c: real, d: real)
    requires 0.0 <= c <= 1.0 && 0.0 <= d
    ensures 0.0 <= c * d <= d
  {
    assert d - c * d == (1.0 - c) * d;
  }

  // ---------------------------------------------------------------------
  // Placement

  /** A placed term: `{ ...item, x, y }` with the position kept in polar form. */
  datatype Blip = Blip(term: Term, angleDeg: real, radius: real)

  /** Item `i` of a group of `n` in quadrant `q`, ring `r`. */
  function PlaceItem(q: int, r: int, n: nat, i: nat, item: Term): (b: Blip)
    requires ValidQuadrant(q) && ValidRing(r) && 0 < n
    ensures b.term == item
    ensures InSector(q, b.angleDeg) && InBand(r, b.radius)
  {
    var rows := RowCount(n);
    var cols := ColCount(n, rows);
    GridFits(n);
    var seed := StableSeed(item.id);
    var (row, col) := GridCell(i, cols);
    var angle := AngleDeg(q, AngleNorm(row, col, rows, cols), JitterAngle(seed));
    var radius := Radius(r, RadialNorm(row, rows), JitterRadial(seed));
    Blip(item, angle, radius)
  }

  /** All items of one (quadrant, ring) group, in group order. */
  function PlaceGroup(q: int, r: int, items: seq<Term>): (blips: seq<Blip>)
    requires ValidQuadrant(q) && ValidRing(r)
    ensures |blips| == |items|
    ensures forall i :: 0 <= i < |blips| ==> blips[i].term == items[i]
    ensures forall i :: 0 <= i < |blips| ==> InSector(q, blips[i].angleDeg) && InBand(r, blips[i].radius)
  {
    if |items| == 0 then []
    else seq(|items|, i requires 0 <= i < |items| => PlaceItem(q, r, |items|, i, items[i]))
  }

  /** The grouping key `${category}-${maturity}`. */
  function GroupKey(category: string, maturity: string): string
  {
    category + "-" + maturity
  }

  /** For hyphen-free quadrant and ring names the key identifies the pair:
      no other (category, maturity) pair can land in that group. */
  lemma GroupKeyInjective(category: string, maturity: string, q: string, r: string)
    requires '-' !in q && '-' !in r
    ensures GroupKey(category, maturity) == GroupKey(q, r) <==> category == q && maturity == r
  {
    ShorterCategoryMeetsHyphen(category, maturity, q, r);
    LongerCategoryMeetsHyphen(category, maturity, q, r);
    var k1, k2 := GroupKey(category, maturity), GroupKey(q, r);
    if k1 == k2 && |category| == |q| {
      assert category == k1[..|category|] == k2[..|q|] == q;
      assert maturity == k1[|category| + 1..] == k2[|q| + 1..] == r;
    }
  }

  lemma ShorterCategoryMeetsHyphen(category: string, maturity: string, q: string, r: string)
    ensures GroupKey(category, maturity) == GroupKey(q, r) && |category| < |q| ==> '-' in q
  {
    var k1, k2 := GroupKey(category, maturity), GroupKey(q, r);
    if k1 == k2 && |category| < |q| {
      assert q[|category|] == k2[|category|] == k1[|category|] == '-';
    }
  }

  lemma LongerCategoryMeetsHyphen(category: string, maturity: string, q: string, r: string)
    ensures GroupKey(category, maturity) == GroupKey(q, r) && |category| > |q| ==> '-' in q || '-' in r
  {
    var k1, k2 := GroupKey(category, maturity), GroupKey(q, r);
    if k1 == k2 && |category| > |q| {
      assert category[|q|] == k1[|q|] == k2[|q|] == '-';
      var x := category[|q| + 1..];
      assert k1[|q| + 1..] == x + "-" + maturity;
      assert k2[|q| + 1..] == r;
      assert r[|x|] == '-';
    }
  }

  /** `groups[key] || []`. */
  function GroupItems(groups: map<string, seq<Term>>, key: string): seq<Term>
  {
    if key in groups then groups[key] else []
  }

  function KeyOf(t: Term): string
  {
    GroupKey(t.category, t.maturity)
  }

  /** Every group holds only terms carrying its key. */
  predicate KeyedCorrectly(groups: map<string, seq<Term>>)
  {
    forall k :: k in groups ==> forall i :: 0 <= i < |groups[k]| ==> KeyOf(groups[k][i]) == k
  }

  /** The `forEach` that pushes each term onto its key's group. */
  function Groups(all: seq<Term>): (groups: map<string, seq<Term>>)
    ensures KeyedCorrectly(groups)
    decreases |all|
  {
    if |all| == 0 then map[]
    else
      var g := Groups(all[..|all| - 1]);
      var t := all[|all| - 1];
      g[KeyOf(t) := GroupItems(g, KeyOf(t)) + [t]]
  }

  /** The filter predicate "carries key `key`". */
  function KeyIs(key: string): Term -> bool
  {
    (t: Term) => KeyOf(t) == key
  }

  /** A group is the input filtered by its key, in input order. */
  lemma {:induction false} GroupsAreFilters(all: seq<Term>, key: string)
    ensures GroupItems(Groups(all), key) == Filter(all, KeyIs(key))
    decreases |all|
  {
    if |all| > 0 {
      var prefix, t := all[..|all| - 1], all[|all| - 1];
      GroupsAreFilters(prefix, key);
      assert all == prefix + [t];
      FilterSnoc(prefix, t, KeyIs(key));
    }
  }

  /** A term is drawn when its category is a quadrant and its maturity a ring. */
  predicate OnRadar(t: Term)
  {
    t.category in Quadrants && t.maturity in Rings
  }

  /** The position of a quadrant name in `Quadrants`. */
  function QuadrantIndex(category: string): (q: int)
    requires category in Quadrants
    ensures ValidQuadrant(q) && Quadrants[q] == category
    ensures forall j :: 0 <= j < |Quadrants| && Quadrants[j] == category ==> j == q
  {
    if category == Quadrants[0] then 0
    else if category == Quadrants[1] then 1
    else if category == Quadrants[2] then 2
    else 3
  }

  /** The position of a ring name in `Rings`. */
  function RingIndex(maturity: string): (r: int)
    requires maturity in Rings
    ensures ValidRing(r) && Rings[r] == maturity
    ensures forall j :: 0 <= j < |Rings| && Rings[j] == maturity ==> j == r
  {
    if maturity == Rings[0] then 0
    else if maturity == Rings[1] then 1
    else if maturity == Rings[2] then 2
    else 3
  }

  /** The segment of a term, 4 * quadrant + ring, counted in the order the
      layout visits them; 16 for a term that is not drawn. */
  function SegmentOf(t: Term): (seg: int)
    ensures 0 <= seg <= 16
    ensures seg < 16 <==> OnRadar(t)
  {
    if OnRadar(t) then 4 * QuadrantIndex(t.category) + RingIndex(t.maturity) else 16
  }

  /** A blip of a drawn term, inside its quadrant's sector and its ring's band. */
  predicate WellPlaced(b: Blip)
  {
    && OnRadar(b.term)
    && InSector(QuadrantIndex(b.term.category), b.angleDeg)
    && InBand(RingIndex(b.term.maturity), b.radius)
  }

  /** Blips appear segment by segment: quadrant order, then ring order. */
  predicate InSegmentOrder(blips: seq<Blip>)
  {
    forall i, j :: 0 <= i < j < |blips| ==> SegmentOf(blips[i].term) <= SegmentOf(blips[j].term)
  }

  /** The blips of segment `seg`: its (quadrant, ring) group, placed. */
  function SegmentBlips(groups: map<string, seq<Term>>, seg: int): (blips: seq<Blip>)
    requires 0 <= seg < 16
    requires KeyedCorrectly(groups)
    ensures forall i :: 0 <= i < |blips| ==> WellPlaced(blips[i]) && SegmentOf(blips[i].term) == seg
  {
    var q, r := seg / 4, seg % 4;
    var key := GroupKey(Quadrants[q], Rings[r]);
    var items := GroupItems(groups, key);
    var blips := PlaceGroup(q, r, items);
    forall i | 0 <= i < |blips|
      ensures WellPlaced(blips[i]) && SegmentOf(blips[i].term) == seg
    {
      assert KeyOf(items[i]) == key;
      KeyMatchesSegment(items[i], seg);
    }
    blips
  }

  /** Blips of segment `seg` and all later segments, in segment order. */
  function LayoutFrom(groups: map<string, seq<Term>>, seg: nat): (blips: seq<Blip>)
    requires seg <= 16
    requires KeyedCorrectly(groups)
    ensures forall i :: 0 <= i < |blips| ==> WellPlaced(blips[i]) && seg <= SegmentOf(blips[i].term)
    ensures InSegmentOrder(blips)
    decreases 16 - seg
  {
    if seg == 16 then []
    else SegmentBlips(groups, seg) + LayoutFrom(groups, seg + 1)
  }

  /** `points`: every drawable term, segment by segment, each inside its
      quadrant's sector and its ring's band. */
  function Points(all: seq<Term>): (blips: seq<Blip>)
    ensures forall i :: 0 <= i < |blips| ==> WellPlaced(blips[i])
    ensures InSegmentOrder(blips)
  {
    LayoutFrom(Groups(all), 0)
  }

  function BlipTerms(blips: seq<Blip>): (terms: seq<Term>)
    ensures |terms| == |blips|
    ensures forall i :: 0 <= i < |blips| ==> terms[i] == blips[i].term
  {
    seq(|blips|, i requires 0 <= i < |blips| => blips[i].term)
  }

  /** The filter predicate "drawn in segment `seg`". */
  function InSegment(seg: int): Term -> bool
  {
    (t: Term) => SegmentOf(t) == seg
  }

  /** The filter predicate "drawn in segment `seg` or a later one". */
  function InSegmentsFrom(seg: int): Term -> bool
  {
    (t: Term) => seg <= SegmentOf(t) < 16
  }

  /** A segment's group is exactly the input terms of that segment. */
  lemma SegmentTerms(all: seq<Term>, seg: int)
    requires 0 <= seg < 16
    ensures BlipTerms(SegmentBlips(Groups(all), seg)) == Filter(all, InSegment(seg))
  {
    var key := GroupKey(Quadrants[seg / 4], Rings[seg % 4]);
    GroupsAreFilters(all, key);
    forall t: Term ensures KeyIs(key)(t) == InSegment(seg)(t) {
      KeyMatchesSegment(t, seg);
    }
    FilterExtensional(all, KeyIs(key), InSegment(seg));
  }

  /** A term carries the key of segment `seg` exactly when it is drawn in that segment. */
  lemma KeyMatchesSegment(t: Term, seg: int)
    requires 0 <= seg < 16
    ensures KeyOf(t) == GroupKey(Quadrants[seg / 4], Rings[seg % 4]) <==> SegmentOf(t) == seg
  {
    var q, r := seg / 4, seg % 4;
    NamesHyphenFree(q, r);
    GroupKeyInjective(t.category, t.maturity, Quadrants[q], Rings[r]);
    if SegmentOf(t) == seg {
      assert QuadrantIndex(t.category) == q && RingIndex(t.maturity) == r;
    }
  }

  lemma NamesHyphenFree(q: int, r: int)
    requires ValidQuadrant(q) && ValidRing(r)
    ensures '-' !in Quadrants[q] && '-' !in Rings[r]
  {
  }

  lemma {:induction false} FilterExtensional(xs: seq<Term>, p: Term -> bool, q: Term -> bool)
    requires forall t :: p(t) == q(t)
    ensures Filter(xs, p) == Filter(xs, q)
  {
    if |xs| > 0 {
      FilterExtensional(xs[1..], p, q);
    }
  }

  /** The terms laid out from segment `seg` on are exactly the drawable
      input terms of those segments, each as often as it occurs. */
  lemma {:induction false} LayoutFromTerms(all: seq<Term>, seg: nat)
    requires seg <= 16
    ensures multiset(BlipTerms(LayoutFrom(Groups(all), seg))) == multiset(Filter(all, InSegmentsFrom(seg)))
    decreases 16 - seg
  {
    if seg == 16 {
      FilterNone(all, InSegmentsFrom(seg));
    } else {
      var here := SegmentBlips(Groups(all), seg);
      var rest := LayoutFrom(Groups(all), seg + 1);
      LayoutFromTerms(all, seg + 1);
      BlipTermsAppend(here, rest);
      SegmentTerms(all, seg);
      SegmentsFromSplit(seg);
      FilterDisjointUnion(all, InSegment(seg), InSegmentsFrom(seg + 1), InSegmentsFrom(seg));
    }
  }

  lemma BlipTermsAppend(xs: seq<Blip>, ys: seq<Blip>)
    ensures BlipTerms(xs + ys) == BlipTerms(xs) + BlipTerms(ys)
  {
  }

  /** Segment `seg` and the segments after it are disjoint and together
      make up the segments from `seg` on. */
  lemma SegmentsFromSplit(seg: int)
    requires 0 <= seg < 16
    ensures forall t :: InSegmentsFrom(seg)(t) == (InSegment(seg)(t) || InSegmentsFrom(seg + 1)(t))
    ensures forall t :: !(InSegment(seg)(t) && InSegmentsFrom(seg + 1)(t))
  {
  }

  /** Within each segment the chart keeps the input order: the terms drawn
      in segment `seg` are the input's terms of that segment, in input order. */
  lemma PointsKeepInputOrder(all: seq<Term>, seg: int)
    requires 0 <= seg < 16
    ensures Filter(BlipTerms(Points(all)), InSegment(seg)) == Filter(all, InSegment(seg))
  {
    LayoutFromSegment(all, 0, seg);
  }

  /** The segment-`seg` terms of the layout from segment `from` on, for
      `from <= seg`, are that segment's input terms. */
  lemma {:induction false} LayoutFromSegment(all: seq<Term>, from: nat, seg: int)
    requires from <= seg < 16
    ensures Filter(BlipTerms(LayoutFrom(Groups(all), from)), InSegment(seg)) == Filter(all, InSegment(seg))
    decreases 16 - from
  {
    if from == seg {
      SegmentFirst(all, seg);
    } else {
      SegmentSkipped(all, from, seg);
      LayoutFromSegment(all, from + 1, seg);
    }
  }

  /** The layout's terms split into segment `from` and the later ones. */
  lemma LayoutFromSplit(groups: map<string, seq<Term>>, from: nat, seg: int)
    requires from < 16 && KeyedCorrectly(groups)
    ensures Filter(BlipTerms(LayoutFrom(groups, from)), InSegment(seg))
      == Filter(BlipTerms(SegmentBlips(groups, from)), InSegment(seg))
         + Filter(BlipTerms(LayoutFrom(groups, from + 1)), InSegment(seg))
  {
    var here, rest := SegmentBlips(groups, from), LayoutFrom(groups, from + 1);
    assert LayoutFrom(groups, from) == here + rest;
    BlipTermsAppend(here, rest);
    FilterAppend(BlipTerms(here), BlipTerms(rest), InSegment(seg));
  }

  /** Starting at segment `seg`, only its own blips pass the filter. */
  lemma SegmentFirst(all: seq<Term>, seg: int)
    requires 0 <= seg < 16
    ensures Filter(BlipTerms(LayoutFrom(Groups(all), seg)), InSegment(seg)) == Filter(all, InSegment(seg))
  {
    var groups := Groups(all);
    LayoutFromSplit(groups, seg, seg);
    SegmentTerms(all, seg);
    OnlySegmentKept(SegmentBlips(groups, seg), seg);
    OtherSegmentsDropped(LayoutFrom(groups, seg + 1), seg);
  }

  /** A segment before `seg` contributes nothing to its filter. */
  lemma SegmentSkipped(all: seq<Term>, from: nat, seg: int)
    requires from < seg < 16
    ensures Filter(BlipTerms(LayoutFrom(Groups(all), from)), InSegment(seg))
      == Filter(BlipTerms(LayoutFrom(Groups(all), from + 1)), InSegment(seg))
  {
    var groups := Groups(all);
    LayoutFromSplit(groups, from, seg);
    OtherSegmentsDropped(SegmentBlips(groups, from), seg);
  }

  lemma OnlySegmentKept(blips: seq<Blip>, seg: int)
    requires forall i :: 0 <= i < |blips| ==> SegmentOf(blips[i].term) == seg
    ensures Filter(BlipTerms(blips), InSegment(seg)) == BlipTerms(blips)
  {
    FilterKeepsAll(BlipTerms(blips), InSegment(seg));
  }

  lemma OtherSegmentsDropped(blips: seq<Blip>, seg: int)
    requires forall i :: 0 <= i < |blips| ==> SegmentOf(blips[i].term) != seg
    ensures Filter(BlipTerms(blips), InSegment(seg)) == []
  {
    FilterDropsAll(BlipTerms(blips), InSegment(seg));
  }

  /** Every drawable term is placed exactly once, with its fields unchanged;
      every other term is left off the chart. */
  lemma PointsPlaceEachTermOnce(all: seq<Term>, t: Term)
    ensures multiset(BlipTerms(Points(all)))[t] == if OnRadar(t) then multiset(all)[t] else 0
  {
    LayoutFromTerms(all, 0);
    FilterMultiplicity(all, InSegmentsFrom(0), t);
  }

  // ---------------------------------------------------------------------
  // View box and activity

  /** The SVG `viewBox` as four numbers. */
  datatype ViewBox = ViewBox(minX: int, minY: int, width: int, height: int)

  const FullView: ViewBox := ViewBox(0, 0, Size, Size)

  /** The sector of quadrant `q` lies where cos >= 0 (right of the centre). */
  predicate SectorRightOfCentre(q: int)
    requires ValidQuadrant(q)
  {
    QuadrantAngles[q].0 >= 270 || QuadrantAngles[q].1 <= 90
  }

  /** The sector of quadrant `q` lies where sin >= 0 (below the centre on screen). */
  predicate SectorBelowCentre(q: int)
    requires ValidQuadrant(q)
  {
    QuadrantAngles[q].1 <= 180
  }

  /** `getViewBox()`: the whole chart, or a square window zoomed onto the
      selected quadrant. */
  function GetViewBox(active: Option<string>): (vb: ViewBox)
    ensures !Truthy(active) ==> vb == FullView
    ensures Truthy(active) && active.value !in Quadrants ==> vb == FullView
    ensures Truthy(active) && active.value in Quadrants ==>
      var q := QuadrantIndex(active.value);
      && vb.width == Center + 5 && vb.height == Center + 5
      && vb.minX == (if SectorRightOfCentre(q) then Center - 5 else -5)
      && vb.minY == (if SectorBelowCentre(q) then Center - 5 else -5)
  {
    if !Truthy(active) then FullView
    else
      var zoomSize := Center + 5;
      match active.value
      case "Tools" => ViewBox(Center - 5, -5, zoomSize, zoomSize)
      case "Techniques" => ViewBox(-5, -5, zoomSize, zoomSize)
      case "Platforms" => ViewBox(-5, Center - 5, zoomSize, zoomSize)
      case "Governance" => ViewBox(Center - 5, Center - 5, zoomSize, zoomSize)
      case _ => FullView
  }

  /** A zoomed window shows the whole quarter of the canvas that holds the
      selected quadrant, with a 5-unit margin on the sides next to the centre
      lines and the canvas edge. */
  lemma ZoomCoversQuadrant(quadrant: string)
    requires quadrant in Quadrants
    ensures var vb := GetViewBox(Some(quadrant));
      var q := QuadrantIndex(quadrant);
      var x0 := if SectorRightOfCentre(q) then Center else 0;
      var y0 := if SectorBelowCentre(q) then Center else 0;
      && vb.minX + 5 == x0 && x0 + Center <= vb.minX + vb.width
      && vb.minY + 5 == y0 && y0 + Center <= vb.minY + vb.height
  {
  }

  /** `!activeQuadrant || activeQuadrant === p.category`. */
  predicate IsBlipActive(active: Option<string>, category: string)
  {
    !Truthy(active) || active.value == category
  }

  /** With a quadrant selected, a blip stays shown exactly when it is of that
      quadrant, and a shown blip lies in its sector, i.e. in the zoom window.
      Every blip of `Points` is well placed, so this covers the whole chart. */
  lemma ActiveBlipsInSelectedSector(quadrant: string, b: Blip)
    requires quadrant in Quadrants && WellPlaced(b)
    ensures IsBlipActive(Some(quadrant), b.term.category) <==> b.term.category == quadrant
    ensures IsBlipActive(Some(quadrant), b.term.category) ==> InSector(QuadrantIndex(quadrant), b.angleDeg)
  {
  }
}

=== FILE: terms.dfy ===
/**
  The glossary record shared by every view: a `CompetencyTerm`, and the
  optional values the application passes around (`details?`, the
  selected quadrant that may be `null`).
*/
module Terms {

  datatype Option<T> = None | Some(value: T)

  /** A `CompetencyTerm`. Category and maturity are kept as the strings the
      data carries: rows loaded from a spreadsheet may hold any text there,
      and the radar drops terms whose values are not one of its quadrants
      or rings. */
  datatype Term = Term(
    id: string,
    name: string,
    category: string,
    description: string,
    impact: string,
    maturity: string,
    details: Option<string>,
    keyTech: Option<string>,
    deepDive: Option<string>)

  /** JavaScript truthiness of an optional string: present and non-empty. */
  predicate Truthy(s: Option<string>)
  {
    s.Some? && s.value != ""
  }
}
